=== FILE: README.md ===
# Invoice-processing services: a Dafny model of the bookkeeping core

The repository serves invoice images and PDFs behind two HTTP endpoints. An
object detector (a RetinaNet model behind TorchServe) finds regions; a
LayoutLMv3 token classifier tags words with IOB field labels. This project
models the deterministic code around those models:

- `postprocessing.dfy` (module `Postprocessing`). `process_torch_serve_response`
  turns a `{boxes, scores, labels}` reply into a table keyed by class name.
  `aggregate_results` merges the tables of a PDF's pages with "present on any
  page" semantics. Each is a method with a loop, proved against a
  specification function (`Normalize`, `AggregateTable`). The lemmas about
  those functions state what the tables mean.
- `pdf_to_png.dfy` (module `PdfToPng`). This covers the blank-page decision
  and `convert_pdf_to_png`. The conversion keeps the non-blank pages in
  order, names them `<base>_<i+1>.png` and writes them into a file system
  modelled as a map from path to bytes.
- `field_labels.dfy` (module `FieldLabels`) holds the three copies of the IOB
  label reduction:
  - the set comprehension of `main.py`;
  - the list comprehension of `main.py`;
  - the label loop of `TR_app.py`, which keeps "O".
- `handler.dfy` (module `HandwrittenHandler`) holds the `id2label` table of
  the handwritten-invoice handler and its `postprocess` step.
- `detect_app.dfy` (module `DetectApp`) models `detect_objects` of the
  object-detection service.
- `main_app.dfy` (module `MainApp`) models `process_images` of the
  field-extraction service.
- `common.dfy` (module `Common`) holds the shared pieces:
  - the result and error types;
  - Python's `split('.')[-1].lower()`;
  - `zip`'s pairing;
  - `str(n)`;
  - the fold `Collect`, a loop that appends one value per step and lets the
    first exception escape.

Both endpoints take their backends as oracle functions:

- the detector's reply (status and body);
- the classifier's verdict;
- the field extractor's reply at a given URL;
- the pages a PDF renders to (mean, standard deviation, PNG bytes);
- for `detect_objects`, the order `os.listdir` yields the directory in.

An exception that escapes a request handler is an `Err` of the whole
request. The model raises these:

- the 400 of a count mismatch or an unsupported file;
- an `IndexError` or `KeyError` of the normaliser or of `id2label`;
- a missing file on a read.

The services can raise others, which the model does not. Each has a line
under "## Left out":

- a failed write of the uploaded PDF, `fitz.open` rejecting bytes that are
  not a PDF, and a failed `pix.save`;
- the classifier's `Image.open` rejecting bytes that are not an image;
- a reply body that is not the JSON the code indexes into;
- an HTTP transport error or timeout.

Where a natural reading of the services differs from the code, the model
follows the code:

- `CLASSES[label]` is evaluated before the score is compared with the
  threshold. A label outside the class list therefore raises even for a
  low score. Negative labels index from the end, as in Python.
- In `detect_objects`, `dict.update` with the whole normaliser reply nests
  the table one level down (`NestedClasses`).
- In `process_images`, the PDF pages carry only field lists. The PDF's entry
  therefore ends up with the all-absent table and an empty
  `field_predictions`.

## Model

| member | source | states |
|---|---|---|
| Common.Paired | object_detection/app.py:51 | `zip` pairs as many items as the shorter list holds: no more than either length, and equal to one of them |
| Common.CollectMeaning | object_detection/app.py:50-93 | a loop that appends each step's value and lets the first exception escape succeeds iff every step succeeds; it then holds every step's value in order; otherwise it fails with the error of the first failing step |
| Common.CollectFirstError | object_detection/app.py:90-91 | one failing step fails the whole request, and with that step's error when every earlier step succeeded |
| Common.LastSegment | main.py:49 | `split(sep)[-1]` has no separator, is no longer than the text, and is preceded by a separator when it is shorter |
| Common.LastSegmentIsSuffix | main.py:49 | the last segment is a suffix of the text |
| Common.LastSegmentAfterSeparator | main.py:49 | a separator-free tail after a separator is exactly the last segment |
| Common.LastSegmentWhole | main.py:49 | a text without the separator is its own last segment |
| Common.Extension | main.py:49 | the extension (also computed at object_detection/app.py:52) holds no '.', no upper-case letter, and is no longer than the file name |
| Common.ExtensionOf | main.py:49 | the extension of `stem.ext` is `ext` lower-cased, whatever the stem holds |
| Common.NatToString | object_detection/utils/pdf_to_png.py:48 | `str(i+1)` is a non-empty run of decimal digits, one digit long iff the number is below 10, with no leading zero |
| Common.NatToStringValue | object_detection/utils/pdf_to_png.py:48 | the digits of `str(n)` spell n in decimal |
| Common.NatToStringInjective | object_detection/utils/pdf_to_png.py:48 | distinct page numbers have distinct decimal texts |
| Postprocessing.ProcessTorchServeResponse | object_detection/utils/postprocessing.py:12-33 | the table the loop builds is the specification table `Normalize` (the first exception, or the known classes mapped to their hits) |
| Postprocessing.NormalizeShape | object_detection/utils/postprocessing.py:19-31 | a normalised table's keys are exactly the configured classes minus `__background__`; a class is present iff its list is non-empty; every kept detection scores at least the threshold |
| Postprocessing.HitsMembers | object_detection/utils/postprocessing.py:24-31 | a detection is recorded under class c iff an examined triple has a label naming c and a score at or above the threshold |
| Postprocessing.HitsKeepOrder | object_detection/utils/postprocessing.py:28-31 | two qualifying triples of the same class appear in their input order |
| Postprocessing.ThresholdIsInclusive | object_detection/utils/postprocessing.py:26 | a detection whose score equals the threshold is kept |
| Postprocessing.NormalizeEmptyReply | object_detection/utils/postprocessing.py:19-21 | a reply with nothing to examine gives the all-absent table |
| Postprocessing.NormalizeIgnoresTail | object_detection/utils/postprocessing.py:24 | only the first min(len(boxes), len(scores), len(labels)) triples matter |
| Postprocessing.PrefixAgrees | object_detection/utils/postprocessing.py:24 | replies that agree on their first n triples agree on the error and on every class's hits after n triples |
| Postprocessing.ScanErrorIsFirst | object_detection/utils/postprocessing.py:24-27 | a reply is rejected iff some examined triple raises, and the exception is that of the first such triple |
| Postprocessing.NormalizeErrors | object_detection/utils/postprocessing.py:25-27 | a rejection is an IndexError for a label outside the class list or a KeyError for a qualifying `__background__` detection, nothing else |
| Postprocessing.AggregateResults | object_detection/utils/postprocessing.py:35-48 | aggregation succeeds iff no page marks present a class outside the known ones; it then replaces only `detected_classes`, with the aggregate table; a failure is the KeyError of such an unknown present class |
| Postprocessing.MergePageClasses | object_detection/utils/postprocessing.py:43-46 | one page's loop succeeds iff each of its present classes is a key, and then appends exactly the present entries' detections and sets them present |
| Postprocessing.AggregateStep | object_detection/utils/postprocessing.py:42-46 | merging page i into the aggregate of the pages before it gives the aggregate of the first i+1 pages, and fails iff page i has an unknown present class |
| Postprocessing.GatheredConcat | object_detection/utils/postprocessing.py:42-46 | a class's detections over two runs of pages are the concatenation of each run's, in page order |
| Postprocessing.PresenceIgnoresPageOrder | object_detection/utils/postprocessing.py:44-45 | whether a class is present does not depend on the order of the pages |
| Postprocessing.AggregateWithoutTables | object_detection/utils/postprocessing.py:40-43 | pages without `detected_classes` (error markers, field lists, or no pages at all) give the all-absent table and never fail |
| Postprocessing.KnownKeysNeverFail | object_detection/utils/postprocessing.py:40-46 | pages keyed by known classes never make the merge fail |
| Postprocessing.AggregateConsistent | object_detection/utils/postprocessing.py:44-46 | when each page's entry is present iff it has detections, so is the aggregate's |
| Postprocessing.MarkersGatherNothing | object_detection/utils/postprocessing.py:43 | dropping the pages without a table leaves every class's gathered detections unchanged |
| Postprocessing.MarkersNeverPresent | object_detection/utils/postprocessing.py:43 | dropping the pages without a table leaves every class's presence unchanged |
| Postprocessing.AggregateOfDetectionPages | object_detection/utils/postprocessing.py:42-48 | the aggregate of all pages equals the aggregate of the pages that carry a table |
| PdfToPng.BlankBoundsStrict | object_detection/utils/pdf_to_png.py:31 | for any bounds, both comparisons are strict: a page exactly at the brightness bound or exactly at the spread bound is not blank, and a blank page lies strictly inside both |
| PdfToPng.BlankIsMonotone | object_detection/utils/pdf_to_png.py:31 | a page at least as bright and at most as spread as a blank page is blank too |
| PdfToPng.DefaultBounds | object_detection/utils/pdf_to_png.py:31 | with the defaults 220 and 15, a page is blank iff its mean exceeds 220 and its spread is below 15; a page at either bound is kept |
| PdfToPng.NonBlankUpTo | object_detection/utils/pdf_to_png.py:43-50 | the kept page indices strictly increase, an index is kept iff its page is not blank, and none is kept iff every page is blank |
| PdfToPng.KeptPages | object_detection/utils/pdf_to_png.py:42-52 | there are no more output files than pages, and an all-blank document gives none |
| PdfToPng.Basename | object_detection/utils/pdf_to_png.py:47 | `basename` holds no '/', is no longer than the path, and when shorter is preceded by a '/' |
| PdfToPng.StripExtension | object_detection/utils/pdf_to_png.py:47 | `splitext(name)[0]` is a prefix of the name; when it is shorter it is followed by the final '.', after which no '.' occurs, and it holds a character other than '.' |
| PdfToPng.StripExtensionOf | object_detection/utils/pdf_to_png.py:47 | removing the extension of `stem.ext` gives the stem back when the stem holds a character other than '.' |
| PdfToPng.JoinPath | object_detection/utils/pdf_to_png.py:48 | joining onto an absolute name gives the name itself |
| PdfToPng.ConvertPdfToPng | object_detection/utils/pdf_to_png.py:33-52 | the returned list is the paths of the non-blank pages, in page order, and the file system afterwards is the old one with each such page's PNG written to its path |
| PdfToPng.PageImageNameHasNoSlash | object_detection/utils/pdf_to_png.py:47-48 | a page's file name has no directory part |
| PdfToPng.PageImageNameNumber | object_detection/utils/pdf_to_png.py:48 | a page's file name is the PDF's root, `_`, a run of decimal digits without leading zero whose value is the 1-based page number, and `.png` |
| PdfToPng.PagePathInFolder | object_detection/utils/pdf_to_png.py:48 | every page path lies in the output folder, and its base name is `<base>_<i+1>.png` |
| PdfToPng.JoinPlainName | object_detection/utils/pdf_to_png.py:48 | joining a folder and a plain non-empty name starts with the folder, and its base name is that name |
| PdfToPng.PagePathsDistinct | object_detection/utils/pdf_to_png.py:48 | distinct pages are saved under distinct paths |
| PdfToPng.ListedPathsDistinct | object_detection/utils/pdf_to_png.py:48-50 | the returned paths are pairwise distinct |
| PdfToPng.StoreHolds | object_detection/utils/pdf_to_png.py:49 | after writing distinct paths, each path holds its own contents |
| PdfToPng.StoreNothingElse | object_detection/utils/pdf_to_png.py:49 | writing leaves every other path as it was |
| PdfToPng.StoreKeepsKeys | object_detection/utils/pdf_to_png.py:49 | writing never removes a file |
| PdfToPng.ListedFileHoldsPage | object_detection/utils/pdf_to_png.py:46-50 | after conversion, the k-th returned path holds the PNG of the k-th non-blank page |
| FieldLabels.StripIob | TR_app.py:47 | the reduced name is the label, or the label is `B-` or `I-` followed by it; it differs from the label exactly when the label carries one of those tags |
| FieldLabels.UniqueFields | main.py:68 | the image path's set is contained in the set `TR_app.py` collects, and equals it when no label is "O" |
| FieldLabels.StripIobOfTagged | TR_app.py:47 | `B-f` and `I-f` both reduce to `f` |
| FieldLabels.StripIobEdges | TR_app.py:47 | a bare `B-` or `I-` reduces to the empty name, and an untagged label (including "O") is kept whole |
| FieldLabels.PageFieldList | main.py:96 | the per-page field list has no more entries than there are labels |
| FieldLabels.PageFieldListMatchesUniqueFields | main.py:96 | the list of `main.py:96` names the same fields as the set of `main.py:68`, with one entry per label other than "O" (duplicates kept) |
| FieldLabels.AllFields | TR_app.py:44-48 | the collected set is empty iff there are no labels, and holds "O" whenever some label is "O" |
| FieldLabels.CollectUniqueFields | TR_app.py:43-50 | the label loop collects exactly the reduced labels, "O" included |
| FieldLabels.AllFieldsKeepOutside | TR_app.py:44-48 | keeping "O" adds exactly "O" to the set of `main.py:68`, and only when some label is "O" |
| FieldLabels.AllFieldsBound | TR_app.py:44-48 | the collected set has no more names than there are labels |
| FieldLabels.AllFieldsIgnoresOrder | TR_app.py:44-48 | the collected set does not depend on the order of the labels |
| HandwrittenHandler.Id2LabelLayout | torchserve_TR/docker_onnx_handler_hand_written.py:18-30 | the table's ids are exactly 0 to 10; 0 is "O"; field f (title, date, ieee, total, totalValue) has `B-` at 2f+1 and `I-` at 2f+2 |
| HandwrittenHandler.LabelsFor | torchserve_TR/docker_onnx_handler_hand_written.py:69 | the mapping succeeds iff every id is in the table, giving one label per id in order; otherwise it is the KeyError of the first unknown id |
| HandwrittenHandler.Postprocess | torchserve_TR/docker_onnx_handler_hand_written.py:64-71 | one label list per inference output, in order, or the KeyError of the first output holding an unknown id |
| HandwrittenHandler.LabelReduces | torchserve_TR/docker_onnx_handler_hand_written.py:18-30 | every label of the table is "O" or reduces to one of the five field names |
| HandwrittenHandler.LabelsNameFields | torchserve_TR/docker_onnx_handler_hand_written.py:18-30 | the reduced set of a mapped output holds only field names, plus "O" when "O" is kept |
| DetectApp.DetectObjects | object_detection/app.py:44-93 | the endpoint's response is `Detect`: the per-file entries of the `zip`-paired files, or the first exception |
| DetectApp.ProcessPdf | object_detection/app.py:67-88 | the PDF branch yields the aggregate of the listed pages' results, or the first exception |
| DetectApp.ImageEntry | object_detection/app.py:55-65 | an image entry keeps its id and `field_predictions`; a non-200 reply keeps `detected_classes`; failure happens only on a 200 reply, with an out-of-range label or a qualifying background detection |
| DetectApp.ListedPage | object_detection/app.py:75-85 | a listed name yields at most one page result, none iff it does not end in ".png"; for a ".png" name on disk, a 200 reply the normaliser accepts gives that page's table and any other status gives the error marker naming the file; it fails only for a ".png" name, on a missing file or a rejected detector reply |
| DetectApp.ProcessListedPages | object_detection/app.py:74-85 | the page loop yields, for each listed ".png" name in order, the normalised table or the error marker, or the first exception |
| DetectApp.DirEntries | object_detection/app.py:74 | the directory holds the PDF's own name and then every written page's base name |
| DetectApp.PagesHaveKnownKeys | object_detection/app.py:82-87 | every table gathered from a PDF's pages is keyed by the known classes, so the aggregation cannot fail |
| DetectApp.DetectMeaning | object_detection/app.py:51-91 | the request succeeds iff every paired file does, with one entry per pair in order carrying the paired id; otherwise it fails with the first failing file's error |
| DetectApp.FileEntryKeepsId | object_detection/app.py:53 | every entry carries the id it was paired with |
| DetectApp.UnsupportedFailsRequest | object_detection/app.py:90-91 | a paired file with any other extension fails the whole request, discarding earlier entries, with its own 400 when no earlier file failed |
| DetectApp.DirEntryOnDisk | object_detection/app.py:74-77 | for an upload name without '/', every directory entry joined onto the temporary directory is a file the conversion left there |
| DetectApp.PageNameHoldsPng | object_detection/app.py:76-78 | the name of the k-th kept page reads back that page's PNG |
| DetectApp.PagesFoundOnDisk | object_detection/app.py:74-85 | when every listed name is on disk, a failing page loop fails on a detector reply, never on a missing file |
| DetectApp.PdfFindsItsPages | object_detection/app.py:68-87 | when the listing holds only the directory's entries and the upload name has no '/', the PDF branch never fails on a missing file |
| DetectApp.ImageEntryShape | object_detection/app.py:55-65 | an image answered 200 gets its table nested under a second `detected_classes` key; any other status keeps `{}` and adds the error marker |
| DetectApp.AnsweredPages | object_detection/app.py:74-85 | when the page loop succeeds, the tables among its results are exactly the normalised tables of the listed ".png" names answered 200, in listing order |
| DetectApp.PdfAggregatesSuccessfulPages | object_detection/app.py:81-87 | a PDF's `detected_classes` is the aggregate of the normalised tables of the listed ".png" pages answered 200, in listing order; the error markers contribute nothing |
| MainApp.ProcessImages | main.py:40-101 | the endpoint's response is `Predict`: a 400 for mismatched counts, else every file's entry in order, or the first exception |
| MainApp.ProcessPdf | main.py:71-97 | the PDF branch yields the default entry with `detected_classes` replaced by the aggregate of its pages |
| MainApp.ImageEntry | main.py:52-69 | an image entry keeps its id, has `field_predictions` and no `error`; a non-200 detection leaves `{}`; failure happens only on a 200 detection, with an out-of-range label or a qualifying background detection |
| MainApp.ImagePage | main.py:80-96 | a page yields at most one result, always a field list, and only after a 200 detection; after a 200 detection the normaliser accepts, it is the list of reduced labels without "O" when the extractor answers 200 and nothing otherwise; it fails only on a missing file or a rejected detector reply |
| MainApp.ProcessImagePages | main.py:80-96 | the page loop yields, per returned image in order, a field list when both calls answer 200, or the first exception |
| MainApp.ProcessImagePage | main.py:81-96 | the loop body computes `ImagePage`: the read-back, the detection, and the extraction after a 200 |
| MainApp.CountCheckFirst | main.py:42-43 | mismatched counts fail with the 400, whatever the files and the backends |
| MainApp.PredictMeaning | main.py:47-99 | with equal counts the request succeeds iff every file does, with one entry per file in order carrying its id; otherwise it fails with the first failing file's error |
| MainApp.FileEntryKeepsId | main.py:51 | every entry carries its id, a `field_predictions` list and no `error` key |
| MainApp.UnsupportedPassesThrough | main.py:51-71 | a file of any other type is the default entry whatever the backends answer, and never fails |
| MainApp.FileErrors | main.py:52-97 | of the failures the model raises, a file fails only on a rejected detector reply (bad label or background), or, for a PDF, on a missing page file; the upload write and `fitz.open` failures are left out |
| MainApp.PageErrors | main.py:80-96 | a failing page loop fails on a rejected detector reply or a missing file only |
| MainApp.ImageRouting | main.py:60-64 | only the extractor the classifier picks is consulted (the other one's replies change nothing); handwriting goes to the handwriting URL, anything else to the machine URL |
| MainApp.ImageEntryOnDetection | main.py:54-69 | when detection answers 200 and the normaliser accepts table t, the entry holds `detected_classes` t and the reduced fields of the chosen extractor's reply, `{}` when that reply is not 200 |
| MainApp.ImageFieldsDespiteDetection | main.py:54-69 | when detection does not answer 200, `detected_classes` stays `{}` but the fields are still extracted |
| MainApp.PagesAreFieldLists | main.py:94-96 | every page result of a PDF is a field list |
| MainApp.SkippedPageIgnoresFields | main.py:86-96 | a page whose detection does not answer 200 adds nothing, whatever the extractor would answer |
| MainApp.PdfEntryDiscardsPages | main.py:96-97 | a PDF's entry is the all-absent table with empty `field_predictions`: every page's detections and fields are discarded |
| MainApp.ImageReadsKeptPage | main.py:80-83 | with an absolute temporary directory, joining it onto a returned path gives the path back, and the k-th read is the PNG of the k-th non-blank page |
| MainApp.PdfFindsItsPages | main.py:72-83 | with an absolute temporary directory, a PDF never fails on a missing page file |
| MainApp.PagesFoundOnDisk | main.py:80-83 | when every returned path is on disk, a failing page loop fails on a detector reply, never on a missing file |

## Left out

- HTTP serving: FastAPI routing, `HTTPException` transport, httpx clients, `JSONResponse`, the IP-allowlist and CORS middleware, and reading `config.json`. URLs, the class list and the threshold are parameters; each backend reply is an oracle returning a status and a payload.
- `MainApp.ImageEntry`: the classifier's `preprocess_image` (classifier/classifier.py:17) runs `Image.open` on every image and on every page that the detector accepted (main.py:60, main.py:89), and raises on bytes that are not an image. The verdict is an oracle boolean, so the model has no such failure. An image therefore gets an entry even when Python would fail the request.
- Malformed backend replies: the replies are typed. A 200 body that is not `{boxes, scores, labels}` JSON (`response.json()` and the key lookups at object_detection/utils/postprocessing.py:16 and 24), or a field reply that is not a JSON list of strings (`field_response.json()` at main.py:67 and 95), cannot occur in the model. Nor can the exceptions they raise.
- HTTP transport errors and timeouts of every `client.post` (main.py:54, 64, 85, 93; object_detection/app.py:59, 80): each call is an oracle that always answers with a status.
- The backends themselves: the RetinaNet and LayoutLMv3 models, the ONNX sessions, the classifier's preprocessing and sigmoid, and the handler's `preprocess`, `inference` and `initialize`. The handwriting verdict is an oracle boolean; predictions are given as integer sequences.
- The handler's `argmax(-1).squeeze().tolist()`. Predictions arrive as one list of ids per output. The case where `squeeze` of a one-token output gives a bare integer is not modelled.
- Rendering and statistics: `fitz` rendering, `pix.save`, and the grey-level conversion with `np.mean` and `np.std`. A page is given by its mean, its standard deviation and its PNG bytes.
- `MainApp.FileErrors`: the write of an uploaded PDF cannot fail in the model (main.py:73-75, object_detection/app.py:69-71), because the directory is a map. In Python it raises `FileNotFoundError` when the name's directory part does not exist under the fresh temporary directory, as for `scans/inv.pdf`. Deciding that needs a model of which directories exist and of path normalisation. The same holds for `DetectApp.FileEntry` and `MainApp.FileEntry`.
- `MainApp.FileErrors`: `fitz.open` (object_detection/utils/pdf_to_png.py:41) raises on bytes it cannot parse as a document. The `render` oracle always returns a page list, so the model has no such failure. A failed `pix.save` is not modelled either.
- File I/O: `aiofiles`, `tempfile` and `open`. The temporary directory is a map from path to bytes, so creating and removing it are not modelled. A read of a missing path is the `FileNotFound` error.
- `os.listdir`: its order, and which names it returns, come from an oracle applied to the directory's entries. An oracle listing names that were never written is allowed, and yields `FileNotFound` as Python would.
- `convert_pdf_images_to_png` and the module-level script at the end of `pdf_to_png.py`: not part of the request path.
- The commented-out batch code of `object_detection/app.py` and the TR service's `/predict` and `/test` endpoints.
- The `images is None` check in `main.py`: `convert_pdf_to_png` always returns a list.
- Python's `str.lower()` beyond ASCII letters: `Lower` only maps `A`-`Z`.
- `StripExtension` is stated for names without '/', which is how `convert_pdf_to_png` calls it after `basename`.
- Dictionary key order and the order of `list(set(...))`: tables are maps, and `field_predictions` is a set (`FileResult.fieldPredictions`).
- JSON number types: boxes and scores are reals, and scores are only compared with the threshold.
- Concurrency: the endpoints await each call in turn, so only their order is modelled.
- Backend call logs: "no backend is called" and "the field call happens only after a 200 detection" are stated as independence from the backends' replies (`MainApp.CountCheckFirst`, `MainApp.UnsupportedPassesThrough`, `MainApp.ImageRouting`, `MainApp.SkippedPageIgnoresFields`), not as a trace of the calls.
- Detection calls whose result is discarded (`main.py` normalises each page's reply but keeps only its exception) are modelled by their effect on the outcome only.

=== FILE: common.dfy ===
/** Shared vocabulary of the pipeline: the option and result wrappers, the
    errors the services raise, and the few pieces of Python's string and path
    handling that the core relies on. */
module Common {

  /** Raw file contents as uploaded or as rendered to PNG. */
  type Bytes = seq<bv8>

  datatype Option<+T> = None | Some(value: T)

  /** Either a value or the exception that ends the request. */
  datatype Result<+T> = Ok(value: T) | Err(error: Error)

  /** The failures the core can raise. The first two are HTTP 400 responses
      raised on purpose; the others are Python exceptions that escape the
      request handler (HTTP 500). */
  datatype Error =
    | IdCountMismatch                       // len(files) != len(file_id)
    | UnsupportedFileType(filename: string) // extension not png/jpeg/jpg/pdf
    | LabelIndexError(index: int)           // CLASSES[label] out of range
    | ClassKeyError(name: string)           // detected_classes[name] missing
    | IdKeyError(id: int)                   // id2label[pred] missing
    | FileNotFound(path: string)            // open() of a path not on disk

  predicate StartsWith(s: string, prefix: string) {
    |prefix| <= |s| && s[..|prefix|] == prefix
  }

  predicate EndsWith(s: string, suffix: string) {
    |suffix| <= |s| && s[|s| - |suffix|..] == suffix
  }

  /** An uploaded file: its client-side name and its bytes. */
  datatype Upload = Upload(filename: string, contents: Bytes)

  /** `filename.split('.')[-1].lower()`: the text after the last '.',
      lower-cased; a name without '.' is its own extension. */
  function Extension(filename: string): (ext: string)
    ensures |ext| <= |filename|
    ensures '.' !in ext
    ensures forall i :: 0 <= i < |ext| ==> !('A' <= ext[i] <= 'Z')
  {
    Lower(LastSegment(filename, '.'))
  }

  /** The extensions both services accept as images. */
  predicate IsImageExtension(ext: string) {
    ext == "png" || ext == "jpeg" || ext == "jpg"
  }

  /** `min(len(a), len(b))`: how many pairs `zip` yields. */
  function Paired<A, B>(a: seq<A>, b: seq<B>): (n: nat)
    ensures n <= |a| && n <= |b| && (n == |a| || n == |b|)
  {
    if |a| < |b| then |a| else |b|
  }

  /** A loop that appends each step's value and lets the first exception
      escape: the values of all steps, or the first step's error. */
  function Collect<T>(outcomes: seq<Result<T>>): Result<seq<T>> {
    if outcomes == [] then Ok([])
    else match Collect(outcomes[..|outcomes| - 1])
      case Err(e) => Err(e)
      case Ok(values) =>
        match outcomes[|outcomes| - 1]
        case Err(e) => Err(e)
        case Ok(v) => Ok(values + [v])
  }

  /** Collect succeeds iff every step does, and then holds each step's value
      in order; otherwise it fails with the error of the first failing step. */
  lemma {:induction false} CollectMeaning<T>(outcomes: seq<Result<T>>)
    ensures var r := Collect(outcomes);
      && (r.Ok? <==> forall k :: 0 <= k < |outcomes| ==> outcomes[k].Ok?)
      && (r.Ok? ==> |r.value| == |outcomes| && forall k :: 0 <= k < |outcomes| ==> outcomes[k] == Ok(r.value[k]))
      && (r.Err? ==> exists k :: 0 <= k < |outcomes| && outcomes[k] == Err(r.error)
                                 && forall i :: 0 <= i < k ==> outcomes[i].Ok?)
  {
    if outcomes != [] {
      var init := outcomes[..|outcomes| - 1];
      CollectMeaning(init);
      assert forall k :: 0 <= k < |init| ==> init[k] == outcomes[k];
    }
  }

  /** Once a prefix has failed, the whole loop fails with the same error. */
  lemma {:induction false} CollectSticky<T>(outcomes: seq<Result<T>>, m: nat)
    requires m <= |outcomes|
    requires Collect(outcomes[..m]).Err?
    ensures Collect(outcomes) == Collect(outcomes[..m])
  {
    if m < |outcomes| {
      var init := outcomes[..|outcomes| - 1];
      assert init[..m] == outcomes[..m];
      CollectSticky(init, m);
    } else {
      assert outcomes[..m] == outcomes;
    }
  }

  /** A failing step fails the loop; when every earlier step succeeds, with
      that step's error. */
  lemma CollectFirstError<T>(outcomes: seq<Result<T>>, k: nat)
    requires k < |outcomes| && outcomes[k].Err?
    ensures Collect(outcomes).Err?
    ensures (forall i :: 0 <= i < k ==> outcomes[i].Ok?) ==> Collect(outcomes) == Err(outcomes[k].error)
  {
    CollectMeaning(outcomes);
    if forall i :: 0 <= i < k ==> outcomes[i].Ok? {
      var j :| 0 <= j < |outcomes| && outcomes[j] == Err(Collect(outcomes).error)
               && forall i :: 0 <= i < j ==> outcomes[i].Ok?;
      assert j == k;
    }
  }

  /** One more step of the loop. */
  lemma CollectStep<T>(outcomes: seq<Result<T>>, k: nat)
    requires k < |outcomes|
    ensures Collect(outcomes[..k + 1]) == match Collect(outcomes[..k])
      case Err(e) => Err(e)
      case Ok(values) => (match outcomes[k] case Err(e) => Err(e) case Ok(v) => Ok(values + [v]))
  {
    assert outcomes[..k + 1][..k] == outcomes[..k];
  }

  /** The extension is what follows the final '.'. */
  lemma ExtensionOf(stem: string, ext: string)
    requires '.' !in ext
    ensures Extension(stem + "." + ext) == Lower(ext)
  {
    LastSegmentAfterSeparator(stem, '.', ext);
    assert stem + "." + ext == stem + ['.'] + ext;
  }

  /** `s.split(sep)[-1]`: the text after the last `sep`, or all of `s`. */
  function LastSegment(s: string, sep: char): (r: string)
    ensures |r| <= |s|
    ensures sep !in r
    ensures |r| < |s| ==> s[|s| - |r| - 1] == sep
  {
    if s == [] then []
    else if s[|s| - 1] == sep then []
    else LastSegment(s[..|s| - 1], sep) + [s[|s| - 1]]
  }

  /** The last segment is a suffix of the text. */
  lemma {:induction false} LastSegmentIsSuffix(s: string, sep: char)
    ensures LastSegment(s, sep) == s[|s| - |LastSegment(s, sep)|..]
  {
    if s != [] && s[|s| - 1] != sep {
      LastSegmentIsSuffix(s[..|s| - 1], sep);
    }
  }

  /** The three facts LastSegment guarantees determine it: a separator-free
      tail, after a separator, is the last segment. */
  lemma {:induction false} LastSegmentAfterSeparator(head: string, sep: char, tail: string)
    requires sep !in tail
    ensures LastSegment(head + [sep] + tail, sep) == tail
  {
    var s := head + [sep] + tail;
    if tail != [] {
      var t := tail[..|tail| - 1];
      assert tail == t + [tail[|tail| - 1]];
      assert s[..|s| - 1] == head + [sep] + t;
      LastSegmentAfterSeparator(head, sep, t);
    }
  }

  /** A text without the separator is its own last segment. */
  lemma {:induction false} LastSegmentWhole(s: string, sep: char)
    requires sep !in s
    ensures LastSegment(s, sep) == s
  {
    if s != [] {
      assert s[|s| - 1] in s;
      LastSegmentWhole(s[..|s| - 1], sep);
    }
  }

  function LowerChar(c: char): char {
    if 'A' <= c <= 'Z' then (c as int - 'A' as int + 'a' as int) as char else c
  }

  /** `s.lower()` over ASCII letters. */
  function Lower(s: string): string {
    seq(|s|, i requires 0 <= i < |s| => LowerChar(s[i]))
  }

  /** Decimal text of a natural number, as Python's `str(n)`. */
  function NatToString(n: nat): (r: string)
    ensures |r| >= 1
    ensures forall i :: 0 <= i < |r| ==> '0' <= r[i] <= '9'
    ensures n < 10 <==> |r| == 1
    ensures n >= 10 ==> r[0] != '0'
  {
    if n < 10 then [DigitChar(n)]
    else NatToString(n / 10) + [DigitChar(n % 10)]
  }

  function DigitChar(d: nat): (c: char)
    requires d < 10
    ensures '0' <= c <= '9' && c as int - '0' as int == d
  {
    ('0' as int + d) as char
  }

  /** A text made of decimal digits only. */
  predicate IsDecimal(s: string) {
    forall i :: 0 <= i < |s| ==> '0' <= s[i] <= '9'
  }

  /** The number a text of decimal digits spells, most significant first. */
  function DecimalValue(s: string): nat
    requires IsDecimal(s)
  {
    if s == [] then 0
    else DecimalValue(s[..|s| - 1]) * 10 + (s[|s| - 1] as int - '0' as int)
  }

  /** NatToString writes n in decimal: its digits spell n back. */
  lemma {:induction false} NatToStringValue(n: nat)
    ensures IsDecimal(NatToString(n)) && DecimalValue(NatToString(n)) == n
  {
    if n >= 10 {
      var r := NatToString(n);
      assert r[..|r| - 1] == NatToString(n / 10);
      NatToStringValue(n / 10);
    }
  }

  /** Distinct numbers have distinct decimal texts. */
  lemma NatToStringInjective(a: nat, b: nat)
    requires NatToString(a) == NatToString(b)
    ensures a == b
  {
    NatToStringValue(a);
    NatToStringValue(b);
  }
}

=== FILE: detect_app.dfy ===
/** The object-detection service's `/detect` endpoint (`detect_objects`):
    pairs ids with uploads, routes each file by its extension, normalises the
    detector's reply for an image, and for a PDF renders the pages into a
    temporary directory, posts every listed PNG and aggregates the pages. */
module DetectApp {
  import opened Common
  import opened Postprocessing
  import opened PdfToPng

  /** The `error` value of a failed image or page. */
  const FailedMessage := "Failed to process image"

  /** Configuration: the detector URL, the class list and threshold of the
      normaliser, and the temporary directory a PDF is unpacked into. */
  datatype Config = Config(torchServeUrl: string, classes: seq<string>, threshold: real, tempDir: string)

  /** What the endpoint learns from outside: the detector's reply to a POST
      of some bytes, the pages the renderer finds in a PDF, and the order in
      which os.listdir returns a directory's entries. */
  datatype Backends = Backends(
    detect: Bytes -> TorchServeReply,
    render: Bytes -> seq<Page>,
    listDir: seq<string> -> seq<string>)

  // ---------------------------------------------------------------------
  // What the endpoint computes
  // ---------------------------------------------------------------------

  /** The image branch: the reply's table nested under a second
      `detected_classes` key, or the error marker for a non-200 reply. */
  function ImageEntry(cfg: Config, b: Backends, fileResult: FileResult, contents: Bytes): (r: Result<FileResult>)
    ensures r.Ok? ==> r.value.id == fileResult.id && r.value.fieldPredictions == fileResult.fieldPredictions
    ensures r.Ok? && b.detect(contents).status != 200 ==> r.value.detectedClasses == fileResult.detectedClasses
    ensures r.Err? ==> b.detect(contents).status == 200
                       && (r.error.LabelIndexError? || r.error == ClassKeyError(Background))
  {
    var reply := b.detect(contents);
    NormalizeErrors(reply.body, cfg.classes, cfg.threshold);
    if reply.status != 200 then Ok(fileResult.(error := Some(FailedMessage)))
    else match Normalize(reply.body, cfg.classes, cfg.threshold)
      case Err(e) => Err(e)
      case Ok(table) => Ok(fileResult.(detectedClasses := NestedClasses(table)))
  }

  function PdfPath(cfg: Config, upload: Upload): string {
    JoinPath(cfg.tempDir, upload.filename)
  }

  /** The temporary directory once the upload is written and rendered. */
  function PdfDisk(cfg: Config, b: Backends, upload: Upload): map<string, Bytes> {
    var pdfPath := PdfPath(cfg, upload);
    var doc := b.render(upload.contents);
    ConvertedDisk(pdfPath, cfg.tempDir, doc, map[pdfPath := upload.contents])
  }

  /** The directory's entries, in the order they were created: the PDF and
      then its pages. */
  function DirEntries(pdfPath: string, images: seq<string>): (entries: seq<string>)
    ensures |entries| == |images| + 1
    ensures entries[0] == Basename(pdfPath)
    ensures forall k :: 0 <= k < |images| ==> entries[k + 1] == Basename(images[k])
  {
    [Basename(pdfPath)] + Basenames(images)
  }

  function Basenames(paths: seq<string>): (names: seq<string>)
    ensures |names| == |paths|
    ensures forall k :: 0 <= k < |paths| ==> names[k] == Basename(paths[k])
  {
    if paths == [] then [] else Basenames(paths[..|paths| - 1]) + [Basename(paths[|paths| - 1])]
  }

  /** The names os.listdir yields for the rendered PDF's directory. */
  function Listing(cfg: Config, b: Backends, upload: Upload): seq<string> {
    b.listDir(PdfDirEntries(cfg, b, upload))
  }

  /** One listed name: nothing unless it ends in ".png"; otherwise the file
      is read and posted, giving a table or an error marker. */
  function ListedPage(cfg: Config, b: Backends, disk: map<string, Bytes>, name: string): (r: Result<seq<PageResult>>)
    ensures r.Ok? ==> |r.value| <= 1 && (r.value == [] <==> !EndsWith(name, ".png"))
    ensures r.Err? ==> EndsWith(name, ".png")
                       && (r.error == FileNotFound(JoinPath(cfg.tempDir, name))
                           || r.error.LabelIndexError? || r.error == ClassKeyError(Background))
    ensures EndsWith(name, ".png") && JoinPath(cfg.tempDir, name) in disk ==>
              var reply := b.detect(disk[JoinPath(cfg.tempDir, name)]);
              && (reply.status != 200 ==> r == Ok([PageFailure(FailedMessage, name)]))
              && (reply.status == 200 && Normalize(reply.body, cfg.classes, cfg.threshold).Ok? ==>
                    r == Ok([PageDetections(Normalize(reply.body, cfg.classes, cfg.threshold).value)]))
  {
    if !EndsWith(name, ".png") then Ok([])
    else
      var path := JoinPath(cfg.tempDir, name);
      if path !in disk then Err(FileNotFound(path))
      else
        var reply := b.detect(disk[path]);
        NormalizeErrors(reply.body, cfg.classes, cfg.threshold);
        if reply.status != 200 then Ok([PageFailure(FailedMessage, name)])
        else match Normalize(reply.body, cfg.classes, cfg.threshold)
          case Err(e) => Err(e)
          case Ok(table) => Ok([PageDetections(table)])
  }

  /** `pdf_results` after the first n listed names. */
  function PagesUpTo(cfg: Config, b: Backends, disk: map<string, Bytes>, listing: seq<string>, n: nat)
    : Result<seq<PageResult>>
    requires n <= |listing|
  {
    if n == 0 then Ok([])
    else match PagesUpTo(cfg, b, disk, listing, n - 1)
      case Err(e) => Err(e)
      case Ok(pages) =>
        match ListedPage(cfg, b, disk, listing[n - 1])
        case Err(e) => Err(e)
        case Ok(more) => Ok(pages + more)
  }

  /** The PDF branch: the pages' aggregate replaces `detected_classes`. */
  function PdfEntry(cfg: Config, b: Backends, fileResult: FileResult, upload: Upload): Result<FileResult> {
    var listing := Listing(cfg, b, upload);
    match PagesUpTo(cfg, b, PdfDisk(cfg, b, upload), listing, |listing|)
    case Err(e) => Err(e)
    case Ok(pages) => Ok(fileResult.(detectedClasses := Classes(AggregateTable(cfg.classes, pages))))
  }

  function InitialEntry(id: string): FileResult {
    FileResult(id, EmptyDict, None, None)
  }

  /** One file's entry, routed by extension; other extensions end the
      request with a 400. */
  function FileEntry(cfg: Config, b: Backends, id: string, upload: Upload): Result<FileResult> {
    var ext := Extension(upload.filename);
    if IsImageExtension(ext) then ImageEntry(cfg, b, InitialEntry(id), upload.contents)
    else if ext == "pdf" then PdfEntry(cfg, b, InitialEntry(id), upload)
    else Err(UnsupportedFileType(upload.filename))
  }

  /** Each paired file's entry, or the exception it raises. */
  function Outcomes(cfg: Config, b: Backends, fileIds: seq<string>, files: seq<Upload>)
    : (outcomes: seq<Result<FileResult>>)
    ensures |outcomes| == Paired(fileIds, files)
    ensures forall k :: 0 <= k < |outcomes| ==> outcomes[k] == FileEntry(cfg, b, fileIds[k], files[k])
  {
    seq(Paired(fileIds, files), k requires 0 <= k < Paired(fileIds, files) => FileEntry(cfg, b, fileIds[k], files[k]))
  }

  /** The response of the endpoint: the entries of all pairs, or the first
      exception. */
  function Detect(cfg: Config, b: Backends, fileIds: seq<string>, files: seq<Upload>): Result<seq<FileResult>> {
    Collect(Outcomes(cfg, b, fileIds, files))
  }

  // ---------------------------------------------------------------------
  // The endpoint
  // ---------------------------------------------------------------------

  /** detect_objects. */
  method DetectObjects(cfg: Config, b: Backends, fileId: seq<string>, files: seq<Upload>)
    returns (r: Result<seq<FileResult>>)
    ensures r == Detect(cfg, b, fileId, files)
  {
    ghost var outcomes := Outcomes(cfg, b, fileId, files);
    var n := Paired(fileId, files);
    var results: seq<FileResult> := [];
    for k := 0 to n
      invariant Collect(outcomes[..k]) == Ok(results)
    {
      CollectStep(outcomes, k);
      var upload := files[k];
      var fileExtension := Extension(upload.filename);
      var fileResult := InitialEntry(fileId[k]);
      if IsImageExtension(fileExtension) {
        var response := b.detect(upload.contents);
        if response.status == 200 {
          var processed := ProcessTorchServeResponse(response.body, cfg.classes, cfg.threshold);
          if processed.Err? {
            CollectSticky(outcomes, k + 1);
            return Err(processed.error);
          }
          fileResult := fileResult.(detectedClasses := NestedClasses(processed.value));
        } else {
          fileResult := fileResult.(error := Some(FailedMessage));
        }
        results := results + [fileResult];
      } else if fileExtension == "pdf" {
        var entry := ProcessPdf(cfg, b, fileResult, upload);
        if entry.Err? {
          CollectSticky(outcomes, k + 1);
          return Err(entry.error);
        }
        results := results + [entry.value];
      } else {
        CollectSticky(outcomes, k + 1);
        return Err(UnsupportedFileType(upload.filename));
      }
    }
    assert outcomes[..n] == outcomes;
    r := Ok(results);
  }

  /** The PDF branch of detect_objects. */
  method ProcessPdf(cfg: Config, b: Backends, fileResult: FileResult, upload: Upload) returns (r: Result<FileResult>)
    ensures r == PdfEntry(cfg, b, fileResult, upload)
  {
    var pdfPath := JoinPath(cfg.tempDir, upload.filename);
    var images, disk := ConvertPdfToPng(pdfPath, cfg.tempDir, b.render(upload.contents), map[pdfPath := upload.contents]);
    var listing := b.listDir(DirEntries(pdfPath, images));
    var pages := ProcessListedPages(cfg, b, disk, listing);
    if pages.Err? {
      return Err(pages.error);
    }
    var pdfResults := pages.value;
    PagesHaveKnownKeys(cfg, b, disk, listing, |listing|);
    KnownKeysNeverFail(cfg.classes, pdfResults);
    var aggregated := AggregateResults(fileResult, pdfResults, cfg.classes);
    r := Ok(aggregated.value);
  }

  /** The page loop of the PDF branch: every listed ".png" name is read from
      the temporary directory and posted to the detector. */
  method ProcessListedPages(cfg: Config, b: Backends, disk: map<string, Bytes>, listing: seq<string>)
    returns (r: Result<seq<PageResult>>)
    ensures r == PagesUpTo(cfg, b, disk, listing, |listing|)
  {
    var pdfResults: seq<PageResult> := [];
    for j := 0 to |listing|
      invariant PagesUpTo(cfg, b, disk, listing, j) == Ok(pdfResults)
    {
      var imageFilename := listing[j];
      ghost var before := pdfResults;
      if EndsWith(imageFilename, ".png") {
        var imagePath := JoinPath(cfg.tempDir, imageFilename);
        if imagePath !in disk {
          PagesSticky(cfg, b, disk, listing, j + 1, |listing|);
          return Err(FileNotFound(imagePath));
        }
        var response := b.detect(disk[imagePath]);
        if response.status == 200 {
          var processed := ProcessTorchServeResponse(response.body, cfg.classes, cfg.threshold);
          if processed.Err? {
            PagesSticky(cfg, b, disk, listing, j + 1, |listing|);
            return Err(processed.error);
          }
          pdfResults := pdfResults + [PageDetections(processed.value)];
        } else {
          pdfResults := pdfResults + [PageFailure(FailedMessage, imageFilename)];
        }
        assert ListedPage(cfg, b, disk, imageFilename) == Ok(pdfResults[|before|..]);
      } else {
        assert ListedPage(cfg, b, disk, imageFilename) == Ok([]);
      }
      assert pdfResults == before + pdfResults[|before|..];
    }
    r := Ok(pdfResults);
  }

  // ---------------------------------------------------------------------
  // Properties
  // ---------------------------------------------------------------------

  lemma {:induction false} PagesSticky(cfg: Config, b: Backends, disk: map<string, Bytes>, listing: seq<string>, m: nat, n: nat)
    requires m <= n <= |listing|
    requires PagesUpTo(cfg, b, disk, listing, m).Err?
    ensures PagesUpTo(cfg, b, disk, listing, n) == PagesUpTo(cfg, b, disk, listing, m)
  {
    if m < n {
      PagesSticky(cfg, b, disk, listing, m, n - 1);
    }
  }

  /** Every table among the pages is keyed by the known classes. */
  lemma {:induction false} PagesHaveKnownKeys(cfg: Config, b: Backends, disk: map<string, Bytes>, listing: seq<string>, n: nat)
    requires n <= |listing|
    ensures PagesUpTo(cfg, b, disk, listing, n).Ok? ==>
              forall i :: 0 <= i < |PagesUpTo(cfg, b, disk, listing, n).value| ==>
                TableOf(PagesUpTo(cfg, b, disk, listing, n).value[i]).Keys <= KnownClasses(cfg.classes)
  {
    if n > 0 {
      PagesHaveKnownKeys(cfg, b, disk, listing, n - 1);
      var name := listing[n - 1];
      if EndsWith(name, ".png") {
        var path := JoinPath(cfg.tempDir, name);
        if path in disk {
          var reply := b.detect(disk[path]);
          if Normalize(reply.body, cfg.classes, cfg.threshold).Ok? {
            NormalizeShape(reply.body, cfg.classes, cfg.threshold);
          }
        }
      }
    }
  }

  /** The request's outcome, file by file: it succeeds iff every paired
      file does, and then holds one entry per pair, in order, carrying the
      paired id; otherwise it fails with the first failing file's error and
      no entry of the earlier files is returned. */
  lemma DetectMeaning(cfg: Config, b: Backends, fileIds: seq<string>, files: seq<Upload>)
    ensures var r := Detect(cfg, b, fileIds, files);
      var n := Paired(fileIds, files);
      && (r.Ok? <==> forall k :: 0 <= k < n ==> FileEntry(cfg, b, fileIds[k], files[k]).Ok?)
      && (r.Ok? ==> |r.value| == n
                    && forall k :: 0 <= k < n ==>
                         FileEntry(cfg, b, fileIds[k], files[k]) == Ok(r.value[k]) && r.value[k].id == fileIds[k])
      && (r.Err? ==> exists k :: 0 <= k < n && FileEntry(cfg, b, fileIds[k], files[k]) == Err(r.error)
                                 && forall i :: 0 <= i < k ==> FileEntry(cfg, b, fileIds[i], files[i]).Ok?)
  {
    var outcomes := Outcomes(cfg, b, fileIds, files);
    CollectMeaning(outcomes);
    forall k | 0 <= k < |outcomes|
      ensures outcomes[k].Ok? ==> outcomes[k].value.id == fileIds[k]
    {
      FileEntryKeepsId(cfg, b, fileIds[k], files[k]);
    }
  }

  /** Every entry carries the id it was paired with. */
  lemma FileEntryKeepsId(cfg: Config, b: Backends, id: string, upload: Upload)
    ensures FileEntry(cfg, b, id, upload).Ok? ==> FileEntry(cfg, b, id, upload).value.id == id
  {
  }

  /** A paired file with an unsupported extension fails the whole request,
      whatever the files before it produced; the first such file (when no
      earlier file failed otherwise) names the error. */
  lemma UnsupportedFailsRequest(cfg: Config, b: Backends, fileIds: seq<string>, files: seq<Upload>, k: nat)
    requires k < Paired(fileIds, files)
    requires var ext := Extension(files[k].filename); !IsImageExtension(ext) && ext != "pdf"
    ensures Detect(cfg, b, fileIds, files).Err?
    ensures (forall i :: 0 <= i < k ==> FileEntry(cfg, b, fileIds[i], files[i]).Ok?) ==>
              Detect(cfg, b, fileIds, files) == Err(UnsupportedFileType(files[k].filename))
  {
    var outcomes := Outcomes(cfg, b, fileIds, files);
    assert outcomes[k] == Err(UnsupportedFileType(files[k].filename));
    CollectFirstError(outcomes, k);
  }

  /** The names the conversion leaves in the temporary directory. */
  function PdfDirEntries(cfg: Config, b: Backends, upload: Upload): seq<string> {
    var pdfPath := PdfPath(cfg, upload);
    DirEntries(pdfPath, PagePaths(pdfPath, cfg.tempDir, NonBlankIndices(b.render(upload.contents))))
  }

  /** A plain upload name: every entry of the directory, joined back onto
      the temporary directory, is a file the conversion left there. */
  lemma DirEntryOnDisk(cfg: Config, b: Backends, upload: Upload, name: string)
    requires '/' !in upload.filename && upload.filename != []
    requires name in PdfDirEntries(cfg, b, upload)
    ensures JoinPath(cfg.tempDir, name) in PdfDisk(cfg, b, upload)
  {
    var entries := PdfDirEntries(cfg, b, upload);
    var k :| 0 <= k < |entries| && entries[k] == name;
    EntryOnDisk(cfg, b, upload, k);
  }

  lemma EntryOnDisk(cfg: Config, b: Backends, upload: Upload, k: nat)
    requires '/' !in upload.filename && upload.filename != []
    requires k < |PdfDirEntries(cfg, b, upload)|
    ensures JoinPath(cfg.tempDir, PdfDirEntries(cfg, b, upload)[k]) in PdfDisk(cfg, b, upload)
  {
    var pdfPath := PdfPath(cfg, upload);
    var paths := PagePaths(pdfPath, cfg.tempDir, NonBlankIndices(b.render(upload.contents)));
    var entries := DirEntries(pdfPath, paths);
    assert PdfDirEntries(cfg, b, upload) == entries;
    if k == 0 {
      assert entries[0] == Basename(pdfPath);
      PdfNameOnDisk(cfg, b, upload);
    } else {
      assert entries[k] == Basename(paths[k - 1]);
      PageBaseNameOnDisk(cfg, b, upload, k - 1);
    }
  }

  lemma PdfNameOnDisk(cfg: Config, b: Backends, upload: Upload)
    requires '/' !in upload.filename && upload.filename != []
    ensures JoinPath(cfg.tempDir, Basename(PdfPath(cfg, upload))) in PdfDisk(cfg, b, upload)
  {
    var pdfPath := PdfPath(cfg, upload);
    var doc := b.render(upload.contents);
    var kept := NonBlankIndices(doc);
    JoinPlainName(cfg.tempDir, upload.filename);
    StoreKeepsKeys(map[pdfPath := upload.contents], PagePaths(pdfPath, cfg.tempDir, kept), PagePngs(doc, kept), pdfPath);
  }

  lemma PageBaseNameOnDisk(cfg: Config, b: Backends, upload: Upload, k: nat)
    requires k < |NonBlankIndices(b.render(upload.contents))|
    ensures var pdfPath := PdfPath(cfg, upload);
      var paths := PagePaths(pdfPath, cfg.tempDir, NonBlankIndices(b.render(upload.contents)));
      JoinPath(cfg.tempDir, Basename(paths[k])) in PdfDisk(cfg, b, upload)
  {
    var pdfPath := PdfPath(cfg, upload);
    var doc := b.render(upload.contents);
    var kept := NonBlankIndices(doc);
    PagePathInFolder(pdfPath, cfg.tempDir, kept[k]);
    ListedFileHoldsPage(pdfPath, cfg.tempDir, doc, map[pdfPath := upload.contents], k);
  }

  /** The k-th kept page is read back from the name it was saved under. */
  lemma PageNameHoldsPng(cfg: Config, b: Backends, upload: Upload, k: nat)
    requires k < |NonBlankIndices(b.render(upload.contents))|
    ensures var i := NonBlankIndices(b.render(upload.contents))[k];
      var path := JoinPath(cfg.tempDir, PageImageName(PdfPath(cfg, upload), i));
      path in PdfDisk(cfg, b, upload) && PdfDisk(cfg, b, upload)[path] == b.render(upload.contents)[i].png
  {
    ListedFileHoldsPage(PdfPath(cfg, upload), cfg.tempDir, b.render(upload.contents), map[PdfPath(cfg, upload) := upload.contents], k);
  }

  /** When every listed name is on disk, a page loop that fails does so
      because of a detector reply, never because a file is missing. */
  lemma {:induction false} PagesFoundOnDisk(cfg: Config, b: Backends, disk: map<string, Bytes>, listing: seq<string>, n: nat)
    requires n <= |listing|
    requires forall j :: 0 <= j < |listing| ==> JoinPath(cfg.tempDir, listing[j]) in disk
    ensures PagesUpTo(cfg, b, disk, listing, n).Err? ==> !PagesUpTo(cfg, b, disk, listing, n).error.FileNotFound?
  {
    if n > 0 {
      PagesFoundOnDisk(cfg, b, disk, listing, n - 1);
      var name := listing[n - 1];
      if EndsWith(name, ".png") && PagesUpTo(cfg, b, disk, listing, n - 1).Ok? {
        var reply := b.detect(disk[JoinPath(cfg.tempDir, name)]);
        if reply.status == 200 {
          NormalizeErrors(reply.body, cfg.classes, cfg.threshold);
        }
      }
    }
  }

  /** If the directory listing holds only what the conversion wrote there
      (in any order) and the upload's name has no directory part, the PDF
      branch never fails on a missing file. */
  lemma PdfFindsItsPages(cfg: Config, b: Backends, fileResult: FileResult, upload: Upload)
    requires '/' !in upload.filename && upload.filename != []
    requires forall name :: name in Listing(cfg, b, upload) ==> name in PdfDirEntries(cfg, b, upload)
    ensures PdfEntry(cfg, b, fileResult, upload).Err? ==> !PdfEntry(cfg, b, fileResult, upload).error.FileNotFound?
  {
    var listing := Listing(cfg, b, upload);
    forall j | 0 <= j < |listing|
      ensures JoinPath(cfg.tempDir, listing[j]) in PdfDisk(cfg, b, upload)
    {
      DirEntryOnDisk(cfg, b, upload, listing[j]);
    }
    PagesFoundOnDisk(cfg, b, PdfDisk(cfg, b, upload), listing, |listing|);
  }

  /** The image branch never puts the table itself under
      `detected_classes`: a 200 reply nests it one level down, any other
      reply leaves the empty dict and adds the error marker. */
  lemma ImageEntryShape(cfg: Config, b: Backends, id: string, contents: Bytes)
    ensures var e := ImageEntry(cfg, b, InitialEntry(id), contents);
      var reply := b.detect(contents);
      && (reply.status == 200 ==>
            e == match Normalize(reply.body, cfg.classes, cfg.threshold)
                 case Ok(t) => Ok(FileResult(id, NestedClasses(t), None, None))
                 case Err(err) => Err(err))
      && (reply.status != 200 ==> e == Ok(FileResult(id, EmptyDict, None, Some(FailedMessage))))
  {
  }

  /** The tables of the listed ".png" names the detector answered 200 and
      the normaliser accepted, one per such name, in listing order. */
  function AnsweredTables(cfg: Config, b: Backends, disk: map<string, Bytes>, listing: seq<string>)
    : (tables: seq<PageResult>)
    ensures |tables| <= |listing|
    ensures forall i :: 0 <= i < |tables| ==> tables[i].PageDetections?
  {
    if listing == [] then []
    else
      var name := listing[|listing| - 1];
      var path := JoinPath(cfg.tempDir, name);
      var answered :=
        if EndsWith(name, ".png") && path in disk && b.detect(disk[path]).status == 200
           && Normalize(b.detect(disk[path]).body, cfg.classes, cfg.threshold).Ok?
        then [PageDetections(Normalize(b.detect(disk[path]).body, cfg.classes, cfg.threshold).value)]
        else [];
      AnsweredTables(cfg, b, disk, listing[..|listing| - 1]) + answered
  }

  /** When the page loop succeeds, its tables are exactly the answered
      tables: the error markers are the only other pages it yields. */
  lemma {:induction false} AnsweredPages(cfg: Config, b: Backends, disk: map<string, Bytes>, listing: seq<string>, n: nat)
    requires n <= |listing|
    ensures PagesUpTo(cfg, b, disk, listing, n).Ok? ==>
              DetectionPages(PagesUpTo(cfg, b, disk, listing, n).value) == AnsweredTables(cfg, b, disk, listing[..n])
  {
    if n > 0 && PagesUpTo(cfg, b, disk, listing, n).Ok? {
      AnsweredPages(cfg, b, disk, listing, n - 1);
      var pages := PagesUpTo(cfg, b, disk, listing, n - 1).value;
      var more := ListedPage(cfg, b, disk, listing[n - 1]).value;
      assert listing[..n][..n - 1] == listing[..n - 1];
      if more == [] {
        assert pages + more == pages;
      } else {
        assert (pages + more)[..|pages|] == pages;
      }
    }
  }

  /** A PDF's `detected_classes` is the aggregate of the tables of the
      listed pages whose reply was 200, in listing order; the error markers
      of the other pages contribute nothing. */
  lemma PdfAggregatesSuccessfulPages(cfg: Config, b: Backends, id: string, upload: Upload)
    requires PdfEntry(cfg, b, InitialEntry(id), upload).Ok?
    ensures var listing := Listing(cfg, b, upload);
      PdfEntry(cfg, b, InitialEntry(id), upload).value
        == FileResult(id, Classes(AggregateTable(cfg.classes, AnsweredTables(cfg, b, PdfDisk(cfg, b, upload), listing))), None, None)
  {
    var listing := Listing(cfg, b, upload);
    var disk := PdfDisk(cfg, b, upload);
    AggregateOfDetectionPages(cfg.classes, PagesUpTo(cfg, b, disk, listing, |listing|).value);
    AnsweredPages(cfg, b, disk, listing, |listing|);
    assert listing[..|listing|] == listing;
  }
}

=== FILE: field_labels.dfy ===
/** Field-label normalisation: the token classifiers answer with IOB labels
    ("B-total", "I-total", "O"), and the services reduce them to field names.
    Three copies of the reduction exist and they differ: two drop the
    outside label "O" (one building a set, one a list) and one keeps it. */
module FieldLabels {
  import opened Common

  /** The outside label: a token that belongs to no field. */
  const Outside := "O"

  /** A label with its "B-" or "I-" prefix removed; any other label as is. */
  function StripIob(lbl: string): (name: string)
    ensures lbl == name || lbl == "B-" + name || lbl == "I-" + name
    ensures name != lbl <==> StartsWith(lbl, "B-") || StartsWith(lbl, "I-")
  {
    if StartsWith(lbl, "B-") || StartsWith(lbl, "I-") then lbl[2..] else lbl
  }

  /** Both tags of a field reduce to the field's name. */
  lemma StripIobOfTagged(field: string)
    ensures StripIob("B-" + field) == field
    ensures StripIob("I-" + field) == field
  {
    assert ("B-" + field)[2..] == field;
    assert ("I-" + field)[2..] == field;
  }

  /** A bare tag reduces to the empty name, and untagged labels ("O"
      among them) are kept whole. */
  lemma StripIobEdges(lbl: string)
    ensures StripIob("B-") == "" && StripIob("I-") == ""
    ensures !StartsWith(lbl, "B-") && !StartsWith(lbl, "I-") ==> StripIob(lbl) == lbl
    ensures StripIob(Outside) == Outside
  {
  }

  /** The set comprehension of the image path: distinct field names, with
      "O" removed before the prefix is stripped. */
  function UniqueFields(labels: seq<string>): (fields: set<string>)
    ensures fields <= AllFields(labels)
    ensures Outside !in labels ==> fields == AllFields(labels)
  {
    set j | 0 <= j < |labels| && labels[j] != Outside :: StripIob(labels[j])
  }

  /** The list comprehension of the PDF path: one name per label other
      than "O", in label order, duplicates kept. */
  function PageFieldList(labels: seq<string>): (fields: seq<string>)
    ensures |fields| <= |labels|
  {
    if labels == [] then []
    else (if labels[0] == Outside then [] else [StripIob(labels[0])]) + PageFieldList(labels[1..])
  }

  /** Every label reduced, "O" included, as the text-recognition service
      collects them. */
  function AllFields(labels: seq<string>): (fields: set<string>)
    ensures fields == {} <==> labels == []
    ensures Outside in labels ==> Outside in fields
  {
    var fields := set j | 0 <= j < |labels| :: StripIob(labels[j]);
    assert labels != [] ==> StripIob(labels[0]) in fields;
    fields
  }

  /** The label loop of the text-recognition service: adds each reduced
      label to a set. */
  method CollectUniqueFields(labels: seq<string>) returns (uniqueFields: set<string>)
    ensures uniqueFields == AllFields(labels)
  {
    uniqueFields := {};
    for j := 0 to |labels|
      invariant uniqueFields == AllFields(labels[..j])
    {
      var lbl := labels[j];
      var normalizedLabel := StripIob(lbl);
      uniqueFields := uniqueFields + {normalizedLabel};
      AllFieldsSnoc(labels[..j], labels[j]);
      assert labels[..j + 1] == labels[..j] + [labels[j]];
    }
    assert labels[..|labels|] == labels;
  }

  /** The list and the set comprehensions name the same fields, and the
      list has one entry per label other than "O". */
  lemma {:induction false} PageFieldListMatchesUniqueFields(labels: seq<string>)
    ensures (set f | f in PageFieldList(labels)) == UniqueFields(labels)
    ensures |PageFieldList(labels)| == |labels| - multiset(labels)[Outside]
  {
    if labels != [] {
      var rest := labels[1..];
      PageFieldListMatchesUniqueFields(rest);
      assert labels == [labels[0]] + rest;
      assert multiset(labels) == multiset{labels[0]} + multiset(rest);
      forall f
        ensures f in UniqueFields(labels) <==>
                  f in UniqueFields(rest) || (labels[0] != Outside && f == StripIob(labels[0]))
      {
        if f in UniqueFields(labels) {
          var j :| 0 <= j < |labels| && labels[j] != Outside && f == StripIob(labels[j]);
          if j > 0 {
            assert rest[j - 1] == labels[j];
          }
        }
        if f in UniqueFields(rest) {
          var j :| 0 <= j < |rest| && rest[j] != Outside && f == StripIob(rest[j]);
          assert labels[j + 1] == rest[j];
        }
      }
    }
  }

  /** Keeping "O" adds exactly "O", and only when some label is "O". */
  lemma AllFieldsKeepOutside(labels: seq<string>)
    ensures AllFields(labels) == UniqueFields(labels) + (if Outside in labels then {Outside} else {})
  {
    StripIobEdges(Outside);
    forall f | f in AllFields(labels)
      ensures f in UniqueFields(labels) + (if Outside in labels then {Outside} else {})
    {
      var j :| 0 <= j < |labels| && f == StripIob(labels[j]);
      if labels[j] == Outside {
        assert Outside in labels;
      }
    }
    if Outside in labels {
      var j :| 0 <= j < |labels| && labels[j] == Outside;
      assert StripIob(labels[j]) in AllFields(labels);
    }
  }

  /** The collected set has no more names than there are labels. */
  lemma {:induction false} AllFieldsBound(labels: seq<string>)
    ensures |AllFields(labels)| <= |labels|
  {
    if labels != [] {
      AllFieldsBound(labels[..|labels| - 1]);
      AllFieldsSnoc(labels[..|labels| - 1], labels[|labels| - 1]);
      assert labels[..|labels| - 1] + [labels[|labels| - 1]] == labels;
    }
  }

  /** One more label adds its reduction to the set. */
  lemma AllFieldsSnoc(labels: seq<string>, lbl: string)
    ensures AllFields(labels + [lbl]) == AllFields(labels) + {StripIob(lbl)}
  {
    var extended := labels + [lbl];
    assert forall k :: 0 <= k < |labels| ==> extended[k] == labels[k];
    assert extended[|labels|] == lbl;
  }

  /** The collected set does not depend on the order of the labels. */
  lemma AllFieldsIgnoresOrder(a: seq<string>, b: seq<string>)
    requires multiset(a) == multiset(b)
    ensures AllFields(a) == AllFields(b)
  {
    forall f | f in AllFields(a)
      ensures f in AllFields(b)
    {
      var j :| 0 <= j < |a| && f == StripIob(a[j]);
      assert a[j] in multiset(b);
      var k :| 0 <= k < |b| && b[k] == a[j];
    }
    forall f | f in AllFields(b)
      ensures f in AllFields(a)
    {
      var k :| 0 <= k < |b| && f == StripIob(b[k]);
      assert b[k] in multiset(a);
      var j :| 0 <= j < |a| && a[j] == b[k];
    }
  }
}

=== FILE: handler.dfy ===
/** The hand-written-invoice token classifier's output stage: the fixed
    table from class id to IOB label, and the mapping of each inference
    output's predicted ids to labels. */
module HandwrittenHandler {
  import opened Common
  import opened FieldLabels

  /** The invoice fields the classifier tags, in id order. */
  const FieldNames: seq<string> := ["title", "date", "ieee", "total", "totalValue"]

  /** id2label: 0 is outside, then a begin and an inside tag per field. */
  const Id2Label: map<int, string> := map[
    0 := "O",
    1 := "B-title", 2 := "I-title",
    3 := "B-date", 4 := "I-date",
    5 := "B-ieee", 6 := "I-ieee",
    7 := "B-total", 8 := "I-total",
    9 := "B-totalValue", 10 := "I-totalValue"]

  /** The table's layout: ids 0 to 10, "O" at 0, and field f's begin tag at
      2f+1 and inside tag at 2f+2. */
  lemma Id2LabelLayout()
    ensures forall id :: id in Id2Label <==> 0 <= id <= 10
    ensures Id2Label[0] == Outside
    ensures forall f :: 0 <= f < |FieldNames| ==>
              Id2Label[2 * f + 1] == "B-" + FieldNames[f] && Id2Label[2 * f + 2] == "I-" + FieldNames[f]
  {
  }

  /** `[self.id2label[pred] for pred in predictions]`: the labels, or the
      KeyError of the first unknown id. */
  function LabelsFor(predictions: seq<int>): (r: Result<seq<string>>)
    ensures r.Ok? <==> forall j :: 0 <= j < |predictions| ==> predictions[j] in Id2Label
    ensures r.Ok? ==> |r.value| == |predictions|
                      && forall j :: 0 <= j < |predictions| ==> r.value[j] == Id2Label[predictions[j]]
    ensures r.Err? ==> exists j :: 0 <= j < |predictions| && predictions[j] !in Id2Label
                                   && r.error == IdKeyError(predictions[j])
                                   && forall i :: 0 <= i < j ==> predictions[i] in Id2Label
  {
    if predictions == [] then Ok([])
    else if predictions[0] !in Id2Label then Err(IdKeyError(predictions[0]))
    else
      var rest := LabelsFor(predictions[1..]);
      if rest.Err? then
        assert forall j :: 1 <= j < |predictions| ==> predictions[1..][j - 1] == predictions[j];
        rest
      else Ok([Id2Label[predictions[0]]] + rest.value)
  }

  /** postprocess: one label list per inference output, in order; the
      first unknown id ends the batch with a KeyError. */
  method Postprocess(inferenceOutput: seq<seq<int>>) returns (r: Result<seq<seq<string>>>)
    ensures r.Ok? <==> forall k :: 0 <= k < |inferenceOutput| ==> LabelsFor(inferenceOutput[k]).Ok?
    ensures r.Ok? ==> |r.value| == |inferenceOutput|
                      && forall k :: 0 <= k < |inferenceOutput| ==> LabelsFor(inferenceOutput[k]) == Ok(r.value[k])
    ensures r.Err? ==> exists k :: 0 <= k < |inferenceOutput| && LabelsFor(inferenceOutput[k]) == Err(r.error)
                                   && forall i :: 0 <= i < k ==> LabelsFor(inferenceOutput[i]).Ok?
  {
    var batchResponses: seq<seq<string>> := [];
    for k := 0 to |inferenceOutput|
      invariant |batchResponses| == k
      invariant forall i :: 0 <= i < k ==> LabelsFor(inferenceOutput[i]) == Ok(batchResponses[i])
    {
      var labels := LabelsFor(inferenceOutput[k]);
      if labels.Err? {
        return Err(labels.error);
      }
      batchResponses := batchResponses + [labels.value];
    }
    r := Ok(batchResponses);
  }

  /** Each label of the table reduces to "O" or a field name. */
  lemma LabelReduces(id: int)
    requires id in Id2Label
    ensures Id2Label[id] == Outside || StripIob(Id2Label[id]) in FieldNames
  {
    Id2LabelLayout();
    if id != 0 {
      var f := (id - 1) / 2;
      assert 0 <= f < |FieldNames|;
      StripIobOfTagged(FieldNames[f]);
      assert id == 2 * f + 1 || id == 2 * f + 2;
    }
  }

  /** Every label the table produces reduces to "O" or one of the five
      field names, so the reduced sets hold only those. */
  lemma LabelsNameFields(predictions: seq<int>)
    requires LabelsFor(predictions).Ok?
    ensures forall f :: f in UniqueFields(LabelsFor(predictions).value) ==> f in FieldNames
    ensures forall f :: f in AllFields(LabelsFor(predictions).value) ==> f in FieldNames || f == Outside
  {
    var labels := LabelsFor(predictions).value;
    forall j | 0 <= j < |labels|
      ensures labels[j] == Outside || StripIob(labels[j]) in FieldNames
    {
      LabelReduces(predictions[j]);
    }
    StripIobEdges(Outside);
  }
}

=== FILE: main_app.dfy ===
/** The field-extraction service's `/predict` endpoint (`process_images`):
    every file is posted to the object detector and, after a document-type
    classifier has picked the handwritten or the machine-written model, to
    the field extractor. A PDF is rendered into a temporary directory and its
    pages go through the same two calls. */
module MainApp {
  import opened Common
  import opened Postprocessing
  import opened PdfToPng
  import opened FieldLabels

  /** Configuration: the three model URLs, the class list and threshold of
      the normaliser, and the temporary directory a PDF is unpacked into. */
  datatype Config = Config(
    retinanetUrl: string,
    machineUrl: string,
    handUrl: string,
    classes: seq<string>,
    threshold: real,
    tempDir: string)

  /** A field extractor's HTTP reply: status code and the JSON list of IOB
      labels. */
  datatype FieldReply = FieldReply(status: int, labels: seq<string>)

  /** What the endpoint learns from outside: the detector's reply, the
      classifier's verdict (true for handwriting), the reply of the field
      extractor at a URL, and the pages the renderer finds in a PDF. */
  datatype Backends = Backends(
    detect: Bytes -> TorchServeReply,
    isHandwritten: Bytes -> bool,
    extract: (string, Bytes) -> FieldReply,
    render: Bytes -> seq<Page>)

  // ---------------------------------------------------------------------
  // What the endpoint computes
  // ---------------------------------------------------------------------

  /** The field extractor the classifier's verdict selects. */
  function TargetUrl(cfg: Config, handwritten: bool): string {
    if handwritten then cfg.handUrl else cfg.machineUrl
  }

  /** The reply of the extractor chosen for these bytes. */
  function FieldReplyFor(cfg: Config, b: Backends, contents: Bytes): FieldReply {
    b.extract(TargetUrl(cfg, b.isHandwritten(contents)), contents)
  }

  /** `{'id': f_id, 'detected_classes': {}, 'field_predictions': []}` */
  function DefaultEntry(id: string): FileResult {
    FileResult(id, EmptyDict, Some({}), None)
  }

  /** The image branch: the normalised table when the detector answers 200,
      and the reduced field names when the extractor does. */
  function ImageEntry(cfg: Config, b: Backends, id: string, contents: Bytes): (r: Result<FileResult>)
    ensures r.Ok? ==> r.value.id == id && r.value.fieldPredictions.Some? && r.value.error.None?
    ensures r.Ok? && b.detect(contents).status != 200 ==> r.value.detectedClasses == EmptyDict
    ensures r.Err? ==> b.detect(contents).status == 200
                       && (r.error.LabelIndexError? || r.error == ClassKeyError(Background))
  {
    var reply := b.detect(contents);
    NormalizeErrors(reply.body, cfg.classes, cfg.threshold);
    var detected: Result<DetectedClasses> :=
      if reply.status != 200 then Ok(EmptyDict)
      else match Normalize(reply.body, cfg.classes, cfg.threshold)
        case Err(e) => Err(e)
        case Ok(table) => Ok(Classes(table));
    match detected
    case Err(e) => Err(e)
    case Ok(d) =>
      var field := FieldReplyFor(cfg, b, contents);
      Ok(DefaultEntry(id).(detectedClasses := d,
                           fieldPredictions := Some(if field.status == 200 then UniqueFields(field.labels) else {})))
  }

  function PdfPath(cfg: Config, upload: Upload): string {
    JoinPath(cfg.tempDir, upload.filename)
  }

  /** The paths convert_pdf_to_png returns. */
  function PdfImages(cfg: Config, b: Backends, upload: Upload): seq<string> {
    PagePaths(PdfPath(cfg, upload), cfg.tempDir, NonBlankIndices(b.render(upload.contents)))
  }

  /** The temporary directory once the upload is written and rendered. */
  function PdfDisk(cfg: Config, b: Backends, upload: Upload): map<string, Bytes> {
    var pdfPath := PdfPath(cfg, upload);
    ConvertedDisk(pdfPath, cfg.tempDir, b.render(upload.contents), map[pdfPath := upload.contents])
  }

  /** One returned image: read back, posted to the detector and, after a 200
      reply, classified and posted to the extractor; a 200 from the extractor
      adds the page's field list. */
  function ImagePage(cfg: Config, b: Backends, disk: map<string, Bytes>, imageFilename: string)
    : (r: Result<seq<PageResult>>)
    ensures r.Ok? ==> |r.value| <= 1 && forall p :: p in r.value ==> p.PageFields?
    ensures r.Ok? && r.value != [] ==> var path := JoinPath(cfg.tempDir, imageFilename);
      path in disk && b.detect(disk[path]).status == 200
    ensures r.Err? ==> r.error == FileNotFound(JoinPath(cfg.tempDir, imageFilename))
                       || r.error.LabelIndexError? || r.error == ClassKeyError(Background)
    ensures var path := JoinPath(cfg.tempDir, imageFilename);
      path in disk && b.detect(disk[path]).status == 200
      && Normalize(b.detect(disk[path]).body, cfg.classes, cfg.threshold).Ok? ==>
        var field := FieldReplyFor(cfg, b, disk[path]);
        r == Ok(if field.status == 200 then [PageFields(PageFieldList(field.labels))] else [])
  {
    var path := JoinPath(cfg.tempDir, imageFilename);
    if path !in disk then Err(FileNotFound(path))
    else
      var contents := disk[path];
      var reply := b.detect(contents);
      NormalizeErrors(reply.body, cfg.classes, cfg.threshold);
      if reply.status != 200 then Ok([])
      else match Normalize(reply.body, cfg.classes, cfg.threshold)
        case Err(e) => Err(e)
        case Ok(_) =>
          var field := FieldReplyFor(cfg, b, contents);
          if field.status == 200 then Ok([PageFields(PageFieldList(field.labels))]) else Ok([])
  }

  /** `pdf_results` after the first n images. */
  function PagesUpTo(cfg: Config, b: Backends, disk: map<string, Bytes>, images: seq<string>, n: nat)
    : Result<seq<PageResult>>
    requires n <= |images|
  {
    if n == 0 then Ok([])
    else match PagesUpTo(cfg, b, disk, images, n - 1)
      case Err(e) => Err(e)
      case Ok(pages) =>
        match ImagePage(cfg, b, disk, images[n - 1])
        case Err(e) => Err(e)
        case Ok(more) => Ok(pages + more)
  }

  /** The PDF branch: the aggregate of the pages replaces `detected_classes`. */
  function PdfEntry(cfg: Config, b: Backends, id: string, upload: Upload): Result<FileResult> {
    var images := PdfImages(cfg, b, upload);
    match PagesUpTo(cfg, b, PdfDisk(cfg, b, upload), images, |images|)
    case Err(e) => Err(e)
    case Ok(pages) => Ok(DefaultEntry(id).(detectedClasses := Classes(AggregateTable(cfg.classes, pages))))
  }

  /** One file's entry, routed by extension; any other extension keeps the
      default entry. */
  function FileEntry(cfg: Config, b: Backends, id: string, upload: Upload): Result<FileResult> {
    var ext := Extension(upload.filename);
    if IsImageExtension(ext) then ImageEntry(cfg, b, id, upload.contents)
    else if ext == "pdf" then PdfEntry(cfg, b, id, upload)
    else Ok(DefaultEntry(id))
  }

  function Outcomes(cfg: Config, b: Backends, fileIds: seq<string>, files: seq<Upload>)
    : (outcomes: seq<Result<FileResult>>)
    ensures |outcomes| == Paired(fileIds, files)
    ensures forall k :: 0 <= k < |outcomes| ==> outcomes[k] == FileEntry(cfg, b, fileIds[k], files[k])
  {
    seq(Paired(fileIds, files), k requires 0 <= k < Paired(fileIds, files) => FileEntry(cfg, b, fileIds[k], files[k]))
  }

  /** The response of the endpoint: a 400 when the counts differ, otherwise
      the entries of all files or the first exception. */
  function Predict(cfg: Config, b: Backends, fileIds: seq<string>, files: seq<Upload>): Result<seq<FileResult>> {
    if |files| != |fileIds| then Err(IdCountMismatch)
    else Collect(Outcomes(cfg, b, fileIds, files))
  }

  // ---------------------------------------------------------------------
  // The endpoint
  // ---------------------------------------------------------------------

  /** process_images. */
  method ProcessImages(cfg: Config, b: Backends, fileId: seq<string>, files: seq<Upload>)
    returns (r: Result<seq<FileResult>>)
    ensures r == Predict(cfg, b, fileId, files)
  {
    if |files| != |fileId| {
      return Err(IdCountMismatch);
    }
    ghost var outcomes := Outcomes(cfg, b, fileId, files);
    var results: seq<FileResult> := [];
    for k := 0 to |files|
      invariant Collect(outcomes[..k]) == Ok(results)
    {
      CollectStep(outcomes, k);
      var file := files[k];
      var fileExtension := Extension(file.filename);
      var fileResult := DefaultEntry(fileId[k]);
      if IsImageExtension(fileExtension) {
        var odResponse := b.detect(file.contents);
        if odResponse.status == 200 {
          var odData := ProcessTorchServeResponse(odResponse.body, cfg.classes, cfg.threshold);
          if odData.Err? {
            CollectSticky(outcomes, k + 1);
            return Err(odData.error);
          }
          fileResult := fileResult.(detectedClasses := Classes(odData.value));
        }
        var isHandwritten := b.isHandwritten(file.contents);
        var targetUrl := if isHandwritten then cfg.handUrl else cfg.machineUrl;
        var fieldResponse := b.extract(targetUrl, file.contents);
        assert fieldResponse == FieldReplyFor(cfg, b, file.contents);
        if fieldResponse.status == 200 {
          var uniqueFields := UniqueFields(fieldResponse.labels);
          assert fileResult.fieldPredictions.value + uniqueFields == uniqueFields;
          fileResult := fileResult.(fieldPredictions := Some(fileResult.fieldPredictions.value + uniqueFields));
          assert fileResult.fieldPredictions == Some(uniqueFields);
        }
        assert ImageEntry(cfg, b, fileId[k], file.contents) == Ok(fileResult);
      } else if fileExtension == "pdf" {
        var entry := ProcessPdf(cfg, b, fileResult, file);
        if entry.Err? {
          CollectSticky(outcomes, k + 1);
          return Err(entry.error);
        }
        fileResult := entry.value;
      }
      results := results + [fileResult];
    }
    assert outcomes[..|files|] == outcomes;
    r := Ok(results);
  }

  /** The PDF branch of process_images. */
  method ProcessPdf(cfg: Config, b: Backends, fileResult: FileResult, file: Upload) returns (r: Result<FileResult>)
    requires fileResult == DefaultEntry(fileResult.id)
    ensures r == PdfEntry(cfg, b, fileResult.id, file)
  {
    var pdfPath := JoinPath(cfg.tempDir, file.filename);
    var images, disk := ConvertPdfToPng(pdfPath, cfg.tempDir, b.render(file.contents), map[pdfPath := file.contents]);
    var pages := ProcessImagePages(cfg, b, disk, images);
    if pages.Err? {
      return Err(pages.error);
    }
    var pdfResults := pages.value;
    PagesAreFieldLists(cfg, b, disk, images, |images|);
    AggregateWithoutTables(cfg.classes, pdfResults);
    var aggregated := AggregateResults(fileResult, pdfResults, cfg.classes);
    r := Ok(aggregated.value);
  }

  /** The page loop of the PDF branch. */
  method ProcessImagePages(cfg: Config, b: Backends, disk: map<string, Bytes>, images: seq<string>)
    returns (r: Result<seq<PageResult>>)
    ensures r == PagesUpTo(cfg, b, disk, images, |images|)
  {
    var pdfResults: seq<PageResult> := [];
    for j := 0 to |images|
      invariant PagesUpTo(cfg, b, disk, images, j) == Ok(pdfResults)
    {
      var page := ProcessImagePage(cfg, b, disk, images[j]);
      if page.Err? {
        PagesSticky(cfg, b, disk, images, j + 1, |images|);
        return Err(page.error);
      }
      pdfResults := pdfResults + page.value;
    }
    r := Ok(pdfResults);
  }

  /** One returned image: read it back, post it to the detector and, after
      a 200 reply, to the extractor the classifier picks. */
  method ProcessImagePage(cfg: Config, b: Backends, disk: map<string, Bytes>, imageFilename: string)
    returns (r: Result<seq<PageResult>>)
    ensures r == ImagePage(cfg, b, disk, imageFilename)
  {
    var imagePath := JoinPath(cfg.tempDir, imageFilename);
    if imagePath !in disk {
      return Err(FileNotFound(imagePath));
    }
    var imageContents := disk[imagePath];
    var odResponse := b.detect(imageContents);
    if odResponse.status != 200 {
      return Ok([]);
    }
    var odData := ProcessTorchServeResponse(odResponse.body, cfg.classes, cfg.threshold);
    if odData.Err? {
      return Err(odData.error);
    }
    var isHandwritten := b.isHandwritten(imageContents);
    var targetUrl := if isHandwritten then cfg.handUrl else cfg.machineUrl;
    var fieldResponse := b.extract(targetUrl, imageContents);
    assert fieldResponse == FieldReplyFor(cfg, b, imageContents);
    if fieldResponse.status == 200 {
      r := Ok([PageFields(PageFieldList(fieldResponse.labels))]);
    } else {
      r := Ok([]);
    }
  }

  // ---------------------------------------------------------------------
  // Properties
  // ---------------------------------------------------------------------

  lemma {:induction false} PagesSticky(cfg: Config, b: Backends, disk: map<string, Bytes>, images: seq<string>, m: nat, n: nat)
    requires m <= n <= |images|
    requires PagesUpTo(cfg, b, disk, images, m).Err?
    ensures PagesUpTo(cfg, b, disk, images, n) == PagesUpTo(cfg, b, disk, images, m)
  {
    if m < n {
      PagesSticky(cfg, b, disk, images, m, n - 1);
    }
  }

  /** The pages of this service carry field lists only, never a
      `detected_classes` table. */
  lemma {:induction false} PagesAreFieldLists(cfg: Config, b: Backends, disk: map<string, Bytes>, images: seq<string>, n: nat)
    requires n <= |images|
    ensures PagesUpTo(cfg, b, disk, images, n).Ok? ==>
              forall i :: 0 <= i < |PagesUpTo(cfg, b, disk, images, n).value| ==>
                PagesUpTo(cfg, b, disk, images, n).value[i].PageFields?
  {
    if n > 0 {
      PagesAreFieldLists(cfg, b, disk, images, n - 1);
    }
  }

  /** The request's outcome: a 400 when the counts differ; otherwise it
      succeeds iff every file does, holding one entry per file, in order,
      carrying its id, and fails with the first failing file's error. */
  lemma PredictMeaning(cfg: Config, b: Backends, fileIds: seq<string>, files: seq<Upload>)
    ensures var r := Predict(cfg, b, fileIds, files);
      |files| == |fileIds| ==>
      && (r.Ok? <==> forall k :: 0 <= k < |files| ==> FileEntry(cfg, b, fileIds[k], files[k]).Ok?)
      && (r.Ok? ==> |r.value| == |files|
                    && forall k :: 0 <= k < |files| ==>
                         FileEntry(cfg, b, fileIds[k], files[k]) == Ok(r.value[k]) && r.value[k].id == fileIds[k])
      && (r.Err? ==> exists k :: 0 <= k < |files| && FileEntry(cfg, b, fileIds[k], files[k]) == Err(r.error)
                                 && forall i :: 0 <= i < k ==> FileEntry(cfg, b, fileIds[i], files[i]).Ok?)
  {
    if |files| == |fileIds| {
      var outcomes := Outcomes(cfg, b, fileIds, files);
      CollectMeaning(outcomes);
      forall k | 0 <= k < |outcomes|
        ensures outcomes[k].Ok? ==> outcomes[k].value.id == fileIds[k]
      {
        FileEntryKeepsId(cfg, b, fileIds[k], files[k]);
      }
    }
  }

  /** Every entry carries the id it was paired with, and every entry has a
      `field_predictions` list and no `error` key. */
  lemma FileEntryKeepsId(cfg: Config, b: Backends, id: string, upload: Upload)
    ensures var e := FileEntry(cfg, b, id, upload);
      e.Ok? ==> e.value.id == id && e.value.fieldPredictions.Some? && e.value.error == None
  {
  }

  /** A file of any other type is passed through as the default entry,
      whatever the backends would answer, and never fails the request. */
  lemma UnsupportedPassesThrough(cfg: Config, b: Backends, id: string, upload: Upload)
    requires var ext := Extension(upload.filename); !IsImageExtension(ext) && ext != "pdf"
    ensures FileEntry(cfg, b, id, upload) == Ok(FileResult(id, EmptyDict, Some({}), None))
  {
  }

  /** The count check comes first: mismatched lists fail with a 400 whatever
      the files hold and whatever the backends would answer. */
  lemma CountCheckFirst(cfg: Config, b: Backends, fileIds: seq<string>, files: seq<Upload>)
    requires |files| != |fileIds|
    ensures Predict(cfg, b, fileIds, files) == Err(IdCountMismatch)
  {
  }

  /** A file is rejected only when a detector reply names a label outside
      the class list or a qualifying background detection, or when a page of
      a PDF cannot be read back; unsupported files are never rejected. */
  lemma FileErrors(cfg: Config, b: Backends, id: string, upload: Upload)
    ensures var e := FileEntry(cfg, b, id, upload);
      e.Err? ==> e.error.LabelIndexError? || e.error == ClassKeyError(Background)
                 || (Extension(upload.filename) == "pdf" && e.error.FileNotFound?)
  {
    var ext := Extension(upload.filename);
    if IsImageExtension(ext) {
      NormalizeErrors(b.detect(upload.contents).body, cfg.classes, cfg.threshold);
    } else if ext == "pdf" {
      var images := PdfImages(cfg, b, upload);
      PageErrors(cfg, b, PdfDisk(cfg, b, upload), images, |images|);
    }
  }

  lemma {:induction false} PageErrors(cfg: Config, b: Backends, disk: map<string, Bytes>, images: seq<string>, n: nat)
    requires n <= |images|
    ensures var p := PagesUpTo(cfg, b, disk, images, n);
      p.Err? ==> p.error.LabelIndexError? || p.error == ClassKeyError(Background) || p.error.FileNotFound?
  {
    if n > 0 {
      PageErrors(cfg, b, disk, images, n - 1);
      var path := JoinPath(cfg.tempDir, images[n - 1]);
      if path in disk {
        NormalizeErrors(b.detect(disk[path]).body, cfg.classes, cfg.threshold);
      }
    }
  }

  /** Only the extractor the classifier picks is consulted: changing the
      other one's replies changes no image entry, and a handwritten image is
      sent to the handwriting model. */
  lemma ImageRouting(cfg: Config, b: Backends, extract: (string, Bytes) -> FieldReply, id: string, contents: Bytes)
    requires var url := TargetUrl(cfg, b.isHandwritten(contents)); extract(url, contents) == b.extract(url, contents)
    ensures ImageEntry(cfg, b.(extract := extract), id, contents) == ImageEntry(cfg, b, id, contents)
    ensures b.isHandwritten(contents) ==> FieldReplyFor(cfg, b, contents) == b.extract(cfg.handUrl, contents)
    ensures !b.isHandwritten(contents) ==> FieldReplyFor(cfg, b, contents) == b.extract(cfg.machineUrl, contents)
  {
  }

  /** An image the detector answers 200 and the normaliser accepts gets its
      table as `detected_classes`, and the reduced fields of the chosen
      extractor's reply when that reply is 200, `{}` otherwise. */
  lemma ImageEntryOnDetection(cfg: Config, b: Backends, id: string, contents: Bytes, t: ClassTable)
    requires b.detect(contents).status == 200
    requires Normalize(b.detect(contents).body, cfg.classes, cfg.threshold) == Ok(t)
    ensures var field := FieldReplyFor(cfg, b, contents);
      ImageEntry(cfg, b, id, contents)
        == Ok(FileResult(id, Classes(t), Some(if field.status == 200 then UniqueFields(field.labels) else {}), None))
  {
  }

  /** An image's fields do not depend on the detector: a failed detection
      leaves the empty dict but the fields are still extracted. */
  lemma ImageFieldsDespiteDetection(cfg: Config, b: Backends, id: string, contents: Bytes)
    requires b.detect(contents).status != 200
    ensures var field := FieldReplyFor(cfg, b, contents);
      ImageEntry(cfg, b, id, contents)
        == Ok(FileResult(id, EmptyDict, Some(if field.status == 200 then UniqueFields(field.labels) else {}), None))
  {
  }

  /** A page whose detection fails is skipped before the classifier and the
      extractor are asked: no extractor reply can change its outcome. */
  lemma SkippedPageIgnoresFields(cfg: Config, b: Backends, extract: (string, Bytes) -> FieldReply,
                                 disk: map<string, Bytes>, imageFilename: string)
    requires JoinPath(cfg.tempDir, imageFilename) in disk
    requires b.detect(disk[JoinPath(cfg.tempDir, imageFilename)]).status != 200
    ensures ImagePage(cfg, b.(extract := extract), disk, imageFilename) == ImagePage(cfg, b, disk, imageFilename) == Ok([])
  {
  }

  /** A PDF's entry keeps nothing of its pages: neither the detections (the
      pages carry field lists only, so every class is absent) nor the field
      lists (they never reach `field_predictions`). */
  lemma PdfEntryDiscardsPages(cfg: Config, b: Backends, id: string, upload: Upload)
    requires PdfEntry(cfg, b, id, upload).Ok?
    ensures PdfEntry(cfg, b, id, upload).value == FileResult(id, Classes(EmptyTable(cfg.classes)), Some({}), None)
  {
    var images := PdfImages(cfg, b, upload);
    var disk := PdfDisk(cfg, b, upload);
    PagesAreFieldLists(cfg, b, disk, images, |images|);
    AggregateWithoutTables(cfg.classes, PagesUpTo(cfg, b, disk, images, |images|).value);
  }

  /** With an absolute temporary directory, joining it onto a returned path
      gives the path back, so the k-th image read is the PNG of the k-th
      non-blank page. */
  lemma ImageReadsKeptPage(cfg: Config, b: Backends, upload: Upload, k: nat)
    requires StartsWith(cfg.tempDir, "/")
    requires k < |NonBlankIndices(b.render(upload.contents))|
    ensures var images := PdfImages(cfg, b, upload);
      var disk := PdfDisk(cfg, b, upload);
      var doc := b.render(upload.contents);
      && JoinPath(cfg.tempDir, images[k]) == images[k]
      && images[k] in disk
      && disk[images[k]] == doc[NonBlankIndices(doc)[k]].png
  {
    var pdfPath := PdfPath(cfg, upload);
    var doc := b.render(upload.contents);
    var kept := NonBlankIndices(doc);
    var path := PagePaths(pdfPath, cfg.tempDir, kept)[k];
    assert path == PagePath(pdfPath, cfg.tempDir, kept[k]);
    PagePathInFolder(pdfPath, cfg.tempDir, kept[k]);
    AbsoluteFolderPrefix(cfg.tempDir, path);
    ListedFileHoldsPage(pdfPath, cfg.tempDir, doc, map[pdfPath := upload.contents], k);
  }

  /** A path inside an absolute folder is absolute. */
  lemma AbsoluteFolderPrefix(folder: string, path: string)
    requires StartsWith(folder, "/") && StartsWith(path, folder)
    ensures StartsWith(path, "/")
  {
    assert path[..1] == folder[..|folder|][..1];
  }

  /** With an absolute temporary directory, a PDF never fails on a missing
      page file. */
  lemma PdfFindsItsPages(cfg: Config, b: Backends, id: string, upload: Upload)
    requires StartsWith(cfg.tempDir, "/")
    ensures PdfEntry(cfg, b, id, upload).Err? ==> !PdfEntry(cfg, b, id, upload).error.FileNotFound?
  {
    var images := PdfImages(cfg, b, upload);
    var disk := PdfDisk(cfg, b, upload);
    forall j | 0 <= j < |images|
      ensures JoinPath(cfg.tempDir, images[j]) in disk
    {
      ImageReadsKeptPage(cfg, b, upload, j);
    }
    PagesFoundOnDisk(cfg, b, disk, images, |images|);
  }

  lemma {:induction false} PagesFoundOnDisk(cfg: Config, b: Backends, disk: map<string, Bytes>, images: seq<string>, n: nat)
    requires n <= |images|
    requires forall j :: 0 <= j < |images| ==> JoinPath(cfg.tempDir, images[j]) in disk
    ensures PagesUpTo(cfg, b, disk, images, n).Err? ==> !PagesUpTo(cfg, b, disk, images, n).error.FileNotFound?
  {
    if n > 0 {
      PagesFoundOnDisk(cfg, b, disk, images, n - 1);
      if PagesUpTo(cfg, b, disk, images, n - 1).Ok? {
        var reply := b.detect(disk[JoinPath(cfg.tempDir, images[n - 1])]);
        if reply.status == 200 {
          NormalizeErrors(reply.body, cfg.classes, cfg.threshold);
        }
      }
    }
  }
}

=== FILE: pdf_to_png.dfy ===
/** Rendering a PDF to one PNG file per non-blank page: the blank-page
    decision over a page's grey-level statistics, the page filter, and the
    naming of the output files. The file system is a map from path to
    contents, passed in and handed back. */
module PdfToPng {
  import opened Common

  /** Default mean-intensity bound: a blank page is brighter than this. */
  const Threshold: real := 220.0
  /** Default spread bound: a blank page varies less than this. */
  const StddevThreshold: real := 15.0

  /** One page of a document, as rendered: the mean and standard deviation
      of its grey levels and the PNG bytes its pixmap saves to. */
  datatype Page = Page(mean: real, stddev: real, png: Bytes)

  /** is_blank_image_page: very bright and nearly uniform, both strict. */
  predicate IsBlankImagePage(mean: real, stddev: real, threshold: real, stddevThreshold: real) {
    mean > threshold && stddev < stddevThreshold
  }

  /** The decision as convert_pdf_to_png makes it, with the defaults. */
  predicate Blank(p: Page) {
    IsBlankImagePage(p.mean, p.stddev, Threshold, StddevThreshold)
  }

  /** For any bounds, both comparisons are strict: a page exactly as bright
      as the brightness bound, or exactly as spread as the spread bound, is
      kept. */
  lemma BlankBoundsStrict(mean: real, stddev: real, threshold: real, stddevThreshold: real)
    ensures !IsBlankImagePage(threshold, stddev, threshold, stddevThreshold)
    ensures !IsBlankImagePage(mean, stddevThreshold, threshold, stddevThreshold)
    ensures IsBlankImagePage(mean, stddev, threshold, stddevThreshold) ==> mean > threshold && stddev < stddevThreshold
  {
  }

  /** A page brighter and more uniform than a blank page is blank too. */
  lemma BlankIsMonotone(mean: real, stddev: real, brighter: real, flatter: real, threshold: real, stddevThreshold: real)
    requires mean <= brighter && flatter <= stddev
    requires IsBlankImagePage(mean, stddev, threshold, stddevThreshold)
    ensures IsBlankImagePage(brighter, flatter, threshold, stddevThreshold)
  {
  }

  /** A page exactly at either default bound is kept. */
  lemma DefaultBounds(p: Page)
    ensures Blank(p) <==> 220.0 < p.mean && p.stddev < 15.0
    ensures p.mean == 220.0 ==> !Blank(p)
    ensures p.stddev == 15.0 ==> !Blank(p)
  {
  }

  /** Indices of the non-blank pages among the first n, in page order. */
  function NonBlankUpTo(doc: seq<Page>, n: nat): (r: seq<nat>)
    requires n <= |doc|
    ensures |r| <= n
    ensures forall j :: 0 <= j < |r| ==> r[j] < n
    ensures forall j, k :: 0 <= j < k < |r| ==> r[j] < r[k]
    ensures forall k: nat :: k in r <==> k < n && !Blank(doc[k])
    ensures r == [] <==> forall k :: 0 <= k < n ==> Blank(doc[k])
  {
    if n == 0 then []
    else
      var before := NonBlankUpTo(doc, n - 1);
      if Blank(doc[n - 1]) then before
      else
        assert forall k: nat :: k in before ==> k < n - 1;
        before + [n - 1]
  }

  function NonBlankIndices(doc: seq<Page>): seq<nat> {
    NonBlankUpTo(doc, |doc|)
  }

  /** os.path.basename: the text after the last '/'. */
  function Basename(path: string): (name: string)
    ensures '/' !in name
    ensures |name| <= |path|
    ensures |name| < |path| ==> path[|path| - |name| - 1] == '/'
  {
    LastSegment(path, '/')
  }

  /** os.path.splitext(name)[0] for a name without '/': the final '.' and
      what follows are removed, unless only dots precede that '.' (so
      ".pdf" and "..pdf" keep their whole text). */
  function StripExtension(name: string): (root: string)
    ensures StartsWith(name, root)
    ensures root != name ==>
              && name[|root|] == '.'
              && '.' !in name[|root| + 1..]
              && exists k :: 0 <= k < |root| && root[k] != '.'
  {
    var ext := LastSegment(name, '.');
    LastSegmentIsSuffix(name, '.');
    if |ext| < |name| && exists k :: 0 <= k < |name| - |ext| - 1 && name[k] != '.'
    then name[..|name| - |ext| - 1]
    else name
  }

  /** Removing the extension of `stem.ext` gives back `stem`. */
  lemma StripExtensionOf(stem: string, ext: string)
    requires '.' !in ext
    requires exists k :: 0 <= k < |stem| && stem[k] != '.'
    ensures StripExtension(stem + "." + ext) == stem
  {
    LastSegmentAfterSeparator(stem, '.', ext);
    var name := stem + "." + ext;
    assert name[..|name| - |ext| - 1] == stem;
    var k :| 0 <= k < |stem| && stem[k] != '.';
    assert name[k] != '.';
  }

  /** os.path.join of two parts. */
  function JoinPath(dir: string, name: string): (path: string)
    ensures StartsWith(name, "/") ==> path == name
  {
    if StartsWith(name, "/") then name
    else if dir == [] || dir[|dir| - 1] == '/' then dir + name
    else dir + "/" + name
  }

  /** `<base>_<i+1>.png`, where base is the PDF's file name without its
      directory and final extension. */
  function PageImageName(pdfPath: string, i: nat): string {
    StripExtension(Basename(pdfPath)) + "_" + NatToString(i + 1) + ".png"
  }

  function PagePath(pdfPath: string, folder: string, i: nat): string {
    JoinPath(folder, PageImageName(pdfPath, i))
  }

  function PagePaths(pdfPath: string, folder: string, indices: seq<nat>): (paths: seq<string>)
    ensures |paths| == |indices|
    ensures forall j :: 0 <= j < |indices| ==> paths[j] == PagePath(pdfPath, folder, indices[j])
  {
    if indices == [] then []
    else PagePaths(pdfPath, folder, indices[..|indices| - 1]) + [PagePath(pdfPath, folder, indices[|indices| - 1])]
  }

  /** The PNG bytes of the given pages. */
  function PagePngs(doc: seq<Page>, indices: seq<nat>): (pngs: seq<Bytes>)
    requires forall j :: 0 <= j < |indices| ==> indices[j] < |doc|
    ensures |pngs| == |indices|
    ensures forall j :: 0 <= j < |indices| ==> pngs[j] == doc[indices[j]].png
  {
    if indices == [] then []
    else PagePngs(doc, indices[..|indices| - 1]) + [doc[indices[|indices| - 1]].png]
  }

  /** The file system after `contents[j]` is written to `paths[j]`, in order. */
  function Store(disk: map<string, Bytes>, paths: seq<string>, contents: seq<Bytes>): map<string, Bytes>
    requires |paths| == |contents|
  {
    if paths == [] then disk
    else Store(disk, paths[..|paths| - 1], contents[..|contents| - 1])[paths[|paths| - 1] := contents[|contents| - 1]]
  }

  /** The file system once a PDF has been converted: `disk` with the PNG of
      every non-blank page written to its path in `folder`. */
  function ConvertedDisk(pdfPath: string, folder: string, doc: seq<Page>, disk: map<string, Bytes>): map<string, Bytes> {
    Store(disk, PagePaths(pdfPath, folder, NonBlankIndices(doc)), PagePngs(doc, NonBlankIndices(doc)))
  }

  /** convert_pdf_to_png: renders each page, saves and lists the non-blank
      ones. Opening and rendering the PDF are the `doc` parameter. */
  method ConvertPdfToPng(pdfPath: string, outputFolder: string, doc: seq<Page>, disk: map<string, Bytes>)
    returns (imageFiles: seq<string>, diskAfter: map<string, Bytes>)
    ensures imageFiles == PagePaths(pdfPath, outputFolder, NonBlankIndices(doc))
    ensures diskAfter == Store(disk, imageFiles, PagePngs(doc, NonBlankIndices(doc)))
  {
    imageFiles := [];
    diskAfter := disk;
    ghost var pngs: seq<Bytes> := [];
    for i := 0 to |doc|
      invariant imageFiles == PagePaths(pdfPath, outputFolder, NonBlankUpTo(doc, i))
      invariant pngs == PagePngs(doc, NonBlankUpTo(doc, i))
      invariant |imageFiles| == |pngs|
      invariant diskAfter == Store(disk, imageFiles, pngs)
    {
      var page := doc[i];
      PageStep(pdfPath, outputFolder, doc, i);
      if !IsBlankImagePage(page.mean, page.stddev, Threshold, StddevThreshold) {
        var imagePath := JoinPath(outputFolder, PageImageName(pdfPath, i));
        StoreAppend(disk, imageFiles, pngs, imagePath, page.png);
        diskAfter := diskAfter[imagePath := page.png];
        imageFiles := imageFiles + [imagePath];
        pngs := pngs + [page.png];
      }
    }
  }

  /** How the kept pages, their paths and their PNGs grow with page i. */
  lemma PageStep(pdfPath: string, folder: string, doc: seq<Page>, i: nat)
    requires i < |doc|
    ensures Blank(doc[i]) ==> NonBlankUpTo(doc, i + 1) == NonBlankUpTo(doc, i)
    ensures !Blank(doc[i]) ==>
              && NonBlankUpTo(doc, i + 1) == NonBlankUpTo(doc, i) + [i]
              && PagePaths(pdfPath, folder, NonBlankUpTo(doc, i + 1))
                 == PagePaths(pdfPath, folder, NonBlankUpTo(doc, i)) + [PagePath(pdfPath, folder, i)]
              && PagePngs(doc, NonBlankUpTo(doc, i + 1)) == PagePngs(doc, NonBlankUpTo(doc, i)) + [doc[i].png]
  {
    var kept := NonBlankUpTo(doc, i);
    assert (kept + [i])[..|kept|] == kept;
  }

  /** A page's file name carries no directory part. */
  lemma PageImageNameHasNoSlash(pdfPath: string, i: nat)
    ensures '/' !in PageImageName(pdfPath, i)
  {
    var base := Basename(pdfPath);
    var root := StripExtension(base);
    assert forall k :: 0 <= k < |root| ==> root[k] == base[k];
    var digits := NatToString(i + 1);
    var name := PageImageName(pdfPath, i);
    forall k | 0 <= k < |name|
      ensures name[k] != '/'
    {
      if k >= |root| + 1 && k < |root| + 1 + |digits| {
        assert name[k] == digits[k - |root| - 1];
      }
    }
  }

  /** A page's file name is the PDF's root, an underscore, the page number
      counted from 1 in decimal without leading zeros, and ".png". */
  lemma PageImageNameNumber(pdfPath: string, i: nat)
    ensures exists digits: string :: IsDecimal(digits) && DecimalValue(digits) == i + 1
              && (|digits| == 1 || digits[0] != '0')
              && PageImageName(pdfPath, i) == StripExtension(Basename(pdfPath)) + "_" + digits + ".png"
  {
    NatToStringValue(i + 1);
    var digits := NatToString(i + 1);
    assert DecimalValue(digits) == i + 1;
  }

  /** Every page path lies in the output folder, and its own name is the
      page's file name. */
  lemma PagePathInFolder(pdfPath: string, folder: string, i: nat)
    ensures StartsWith(PagePath(pdfPath, folder, i), folder)
    ensures Basename(PagePath(pdfPath, folder, i)) == PageImageName(pdfPath, i)
  {
    PageImageNameHasNoSlash(pdfPath, i);
    JoinPlainName(folder, PageImageName(pdfPath, i));
  }

  /** Joining a folder and a plain, non-empty file name. */
  lemma JoinPlainName(folder: string, name: string)
    requires '/' !in name && name != []
    ensures StartsWith(JoinPath(folder, name), folder)
    ensures LastSegment(JoinPath(folder, name), '/') == name
  {
    assert !StartsWith(name, "/") by {
      assert name[0] in name;
    }
    if folder == [] {
      LastSegmentWhole(name, '/');
    } else if folder[|folder| - 1] == '/' {
      var head := folder[..|folder| - 1];
      assert folder + name == head + ['/'] + name;
      LastSegmentAfterSeparator(head, '/', name);
    } else {
      assert folder + "/" + name == folder + ['/'] + name;
      LastSegmentAfterSeparator(folder, '/', name);
    }
  }

  /** Distinct pages are saved under distinct paths, so no page's file
      overwrites another's. */
  lemma {:induction false} PagePathsDistinct(pdfPath: string, folder: string, i: nat, j: nat)
    requires i != j
    ensures PagePath(pdfPath, folder, i) != PagePath(pdfPath, folder, j)
  {
    PagePathInFolder(pdfPath, folder, i);
    PagePathInFolder(pdfPath, folder, j);
    PageImageNamesDistinct(pdfPath, i, j);
  }

  /** Distinct pages get distinct file names: the page number is decimal. */
  lemma PageImageNamesDistinct(pdfPath: string, i: nat, j: nat)
    requires i != j
    ensures PageImageName(pdfPath, i) != PageImageName(pdfPath, j)
  {
    var root := StripExtension(Basename(pdfPath)) + "_";
    var da, db := NatToString(i + 1), NatToString(j + 1);
    if root + da + ".png" == root + db + ".png" {
      SameFrameSameMiddle(root, da, db, ".png");
      NatToStringInjective(i + 1, j + 1);
    }
  }

  /** Equal texts with a common prefix and suffix have equal middles. */
  lemma SameFrameSameMiddle(prefix: string, x: string, y: string, suffix: string)
    requires prefix + x + suffix == prefix + y + suffix
    ensures x == y
  {
    assert |x| == |y|;
    assert x == (prefix + x + suffix)[|prefix|..|prefix| + |x|];
    assert y == (prefix + y + suffix)[|prefix|..|prefix| + |y|];
  }

  predicate Distinct(paths: seq<string>) {
    forall a, b :: 0 <= a < b < |paths| ==> paths[a] != paths[b]
  }

  /** Writing one more file. */
  lemma StoreAppend(disk: map<string, Bytes>, paths: seq<string>, contents: seq<Bytes>, path: string, content: Bytes)
    requires |paths| == |contents|
    ensures Store(disk, paths + [path], contents + [content]) == Store(disk, paths, contents)[path := content]
  {
    assert (paths + [path])[..|paths|] == paths;
    assert (contents + [content])[..|contents|] == contents;
  }

  /** After writing distinct paths, each holds its own contents. */
  lemma {:induction false} StoreHolds(disk: map<string, Bytes>, paths: seq<string>, contents: seq<Bytes>, j: nat)
    requires |paths| == |contents| && j < |paths|
    requires Distinct(paths)
    ensures paths[j] in Store(disk, paths, contents)
    ensures Store(disk, paths, contents)[paths[j]] == contents[j]
  {
    var last := |paths| - 1;
    if j < last {
      StoreHolds(disk, paths[..last], contents[..last], j);
    }
  }

  /** Writing leaves every other path as it was. */
  lemma {:induction false} StoreNothingElse(disk: map<string, Bytes>, paths: seq<string>, contents: seq<Bytes>, path: string)
    requires |paths| == |contents| && path !in paths
    ensures path in Store(disk, paths, contents) <==> path in disk
    ensures path in disk ==> Store(disk, paths, contents)[path] == disk[path]
  {
    if paths != [] {
      var last := |paths| - 1;
      assert path != paths[last];
      assert forall a :: 0 <= a < last ==> paths[..last][a] == paths[a];
      StoreNothingElse(disk, paths[..last], contents[..last], path);
    }
  }

  /** Writing files never removes one. */
  lemma {:induction false} StoreKeepsKeys(disk: map<string, Bytes>, paths: seq<string>, contents: seq<Bytes>, path: string)
    requires |paths| == |contents| && path in disk
    ensures path in Store(disk, paths, contents)
  {
    if paths != [] {
      StoreKeepsKeys(disk, paths[..|paths| - 1], contents[..|contents| - 1], path);
    }
  }

  /** The listed files are pairwise distinct, so each holds its own page's
      PNG afterwards. */
  lemma ListedPathsDistinct(pdfPath: string, folder: string, doc: seq<Page>)
    ensures Distinct(PagePaths(pdfPath, folder, NonBlankIndices(doc)))
  {
    var kept := NonBlankIndices(doc);
    forall a, b | 0 <= a < b < |kept|
      ensures PagePath(pdfPath, folder, kept[a]) != PagePath(pdfPath, folder, kept[b])
    {
      PagePathsDistinct(pdfPath, folder, kept[a], kept[b]);
    }
  }

  /** After conversion, the k-th listed file holds the PNG of the k-th kept
      page. */
  lemma ListedFileHoldsPage(pdfPath: string, folder: string, doc: seq<Page>, disk: map<string, Bytes>, k: nat)
    requires k < |NonBlankIndices(doc)|
    ensures var paths := PagePaths(pdfPath, folder, NonBlankIndices(doc));
      var saved := Store(disk, paths, PagePngs(doc, NonBlankIndices(doc)));
      paths[k] in saved && saved[paths[k]] == doc[NonBlankIndices(doc)[k]].png
  {
    var kept := NonBlankIndices(doc);
    var paths, pngs := PagePaths(pdfPath, folder, kept), PagePngs(doc, kept);
    ListedPathsDistinct(pdfPath, folder, doc);
    StoreHolds(disk, paths, pngs, k);
  }

  /** No more files than pages; an all-blank document gives none. */
  lemma KeptPages(doc: seq<Page>)
    ensures |NonBlankIndices(doc)| <= |doc|
    ensures (forall k :: 0 <= k < |doc| ==> Blank(doc[k])) ==> NonBlankIndices(doc) == []
  {
  }
}

=== FILE: postprocessing.dfy ===
/** The detection normaliser and the page aggregator of the object-detection
    service: a raw `{boxes, scores, labels}` reply becomes a table keyed by
    class name, and the tables of a PDF's pages are merged into one entry with
    "present on any page" semantics. The class list and the confidence
    threshold, read from configuration by the service, are parameters here. */
module Postprocessing {
  import opened Common

  /** The class at index 0 of the configured list, never a key of a table. */
  const Background: string := "__background__"

  datatype Detection = Detection(box: seq<real>, score: real)

  /** `{'present': ..., 'detections': [...]}` */
  datatype ClassEntry = ClassEntry(present: bool, detections: seq<Detection>)

  type ClassTable = map<string, ClassEntry>

  /** The JSON body of a detection reply. */
  datatype RawDetections = RawDetections(boxes: seq<seq<real>>, scores: seq<real>, labels: seq<int>)

  /** A detection service's HTTP reply: status code and JSON body. */
  datatype TorchServeReply = TorchServeReply(status: int, body: RawDetections)

  /** One element of a PDF's `pdf_results` list: a normalised reply, the
      error marker of a failed page, or (in the field-extraction service) a
      page's field list. Only the first kind has a `detected_classes` key. */
  datatype PageResult =
    | PageDetections(detectedClasses: ClassTable)
    | PageFailure(error: string, filename: string)
    | PageFields(uniqueFields: seq<string>)

  /** The value under a result entry's `detected_classes` key: the initial
      empty dict, a class table, or a dict holding a table under a second
      `detected_classes` key (what `dict.update` with a whole reply gives). */
  datatype DetectedClasses = EmptyDict | Classes(table: ClassTable) | NestedClasses(table: ClassTable)

  /** One per-file entry of a response. `fieldPredictions` is None where the
      entry has no `field_predictions` key, `error` None where it has no
      `error` key. */
  datatype FileResult = FileResult(
    id: string,
    detectedClasses: DetectedClasses,
    fieldPredictions: Option<set<string>>,
    error: Option<string>)

  // ---------------------------------------------------------------------
  // Normalising one detection reply
  // ---------------------------------------------------------------------

  /** `zip` stops at the shortest of the three lists. */
  function Examined(raw: RawDetections): nat {
    var n := if |raw.boxes| < |raw.scores| then |raw.boxes| else |raw.scores|;
    if n < |raw.labels| then n else |raw.labels|
  }

  /** The keys of every class table: the configured names but the background. */
  function KnownClasses(classes: seq<string>): set<string> {
    set c | c in classes && c != Background
  }

  function EmptyTable(classes: seq<string>): ClassTable {
    map c | c in KnownClasses(classes) :: ClassEntry(false, [])
  }

  /** Python list indexing accepts -len..len-1. */
  predicate ValidLabel(classes: seq<string>, lbl: int) {
    -|classes| <= lbl < |classes|
  }

  function ClassAt(classes: seq<string>, lbl: int): string
    requires ValidLabel(classes, lbl)
  {
    if lbl >= 0 then classes[lbl] else classes[|classes| + lbl]
  }

  function DetectionAt(raw: RawDetections, i: nat): Detection
    requires i < Examined(raw)
  {
    Detection(raw.boxes[i], raw.scores[i])
  }

  /** Triple i is recorded under class c. */
  predicate Qualifies(raw: RawDetections, classes: seq<string>, threshold: real, i: nat, c: string)
    requires i < Examined(raw)
  {
    ValidLabel(classes, raw.labels[i]) && ClassAt(classes, raw.labels[i]) == c && raw.scores[i] >= threshold
  }

  /** The detections among the first n triples that are recorded under c,
      in input order. */
  function Hits(raw: RawDetections, classes: seq<string>, threshold: real, n: nat, c: string): seq<Detection>
    requires n <= Examined(raw)
  {
    if n == 0 then []
    else Hits(raw, classes, threshold, n - 1, c)
         + (if Qualifies(raw, classes, threshold, n - 1, c) then [DetectionAt(raw, n - 1)] else [])
  }

  /** The exception triple i raises: the class lookup comes first and fails
      for an out-of-range label whatever the score; a qualifying triple whose
      class is not a key of the table (the background) fails next. */
  function TripleError(raw: RawDetections, classes: seq<string>, threshold: real, i: nat): Option<Error>
    requires i < Examined(raw)
  {
    var lbl := raw.labels[i];
    if !ValidLabel(classes, lbl) then Some(LabelIndexError(lbl))
    else if raw.scores[i] >= threshold && ClassAt(classes, lbl) !in KnownClasses(classes) then
      Some(ClassKeyError(ClassAt(classes, lbl)))
    else None
  }

  /** The first exception among the first n triples. */
  function ScanError(raw: RawDetections, classes: seq<string>, threshold: real, n: nat): Option<Error>
    requires n <= Examined(raw)
  {
    if n == 0 then None
    else if ScanError(raw, classes, threshold, n - 1).Some? then ScanError(raw, classes, threshold, n - 1)
    else TripleError(raw, classes, threshold, n - 1)
  }

  function EntryOf(ds: seq<Detection>): ClassEntry {
    ClassEntry(ds != [], ds)
  }

  /** The table after the first n triples have been recorded. */
  function TableAfter(raw: RawDetections, classes: seq<string>, threshold: real, n: nat): ClassTable
    requires n <= Examined(raw)
  {
    map c | c in KnownClasses(classes) :: EntryOf(Hits(raw, classes, threshold, n, c))
  }

  /** What `process_torch_serve_response` computes: every known class maps to
      its hits, and it is present iff it has one. */
  function Normalize(raw: RawDetections, classes: seq<string>, threshold: real): Result<ClassTable> {
    var n := Examined(raw);
    match ScanError(raw, classes, threshold, n)
    case Some(e) => Err(e)
    case None => Ok(TableAfter(raw, classes, threshold, n))
  }

  /** process_torch_serve_response (without the outer `detected_classes`
      wrapper, which the callers strip or keep explicitly). */
  method ProcessTorchServeResponse(raw: RawDetections, classes: seq<string>, threshold: real)
    returns (r: Result<ClassTable>)
    ensures r == Normalize(raw, classes, threshold)
  {
    var n := if |raw.boxes| < |raw.scores| then |raw.boxes| else |raw.scores|;
    n := if n < |raw.labels| then n else |raw.labels|;
    var table := EmptyTable(classes);
    var i := 0;
    while i < n
      invariant 0 <= i <= n == Examined(raw)
      invariant RecordFirst(raw, classes, threshold, i) == Ok(table)
    {
      var lbl := raw.labels[i];
      if !(-|classes| <= lbl < |classes|) {
        r := Err(LabelIndexError(lbl));
        break;
      }
      var className := if lbl >= 0 then classes[lbl] else classes[|classes| + lbl];
      if raw.scores[i] >= threshold {
        if className !in table {
          r := Err(ClassKeyError(className));
          break;
        }
        var entry := table[className];
        table := table[className := ClassEntry(true, entry.detections + [Detection(raw.boxes[i], raw.scores[i])])];
      }
      i := i + 1;
    }
    if i < n {
      RecordFirstSticky(raw, classes, threshold, i + 1, n);
    } else {
      r := Ok(table);
    }
    RecordFirstIsNormalize(raw, classes, threshold);
  }

  /** One iteration of the loop over the triples: record triple i in
      `table`, or raise. */
  function RecordTriple(table: ClassTable, raw: RawDetections, classes: seq<string>, threshold: real, i: nat): Result<ClassTable>
    requires i < Examined(raw)
  {
    var lbl := raw.labels[i];
    if !ValidLabel(classes, lbl) then Err(LabelIndexError(lbl))
    else if raw.scores[i] < threshold then Ok(table)
    else
      var k := ClassAt(classes, lbl);
      if k !in table then Err(ClassKeyError(k))
      else Ok(table[k := ClassEntry(true, table[k].detections + [DetectionAt(raw, i)])])
  }

  /** The loop's state after its first n iterations. */
  function RecordFirst(raw: RawDetections, classes: seq<string>, threshold: real, n: nat): Result<ClassTable>
    requires n <= Examined(raw)
  {
    if n == 0 then Ok(EmptyTable(classes))
    else match RecordFirst(raw, classes, threshold, n - 1)
      case Err(e) => Err(e)
      case Ok(t) => RecordTriple(t, raw, classes, threshold, n - 1)
  }

  lemma {:induction false} RecordFirstSticky(raw: RawDetections, classes: seq<string>, threshold: real, m: nat, n: nat)
    requires m <= n <= Examined(raw)
    requires RecordFirst(raw, classes, threshold, m).Err?
    ensures RecordFirst(raw, classes, threshold, n) == RecordFirst(raw, classes, threshold, m)
    decreases n - m
  {
    if m < n {
      RecordFirstSticky(raw, classes, threshold, m, n - 1);
    }
  }

  /** The loop computes the declarative table: after n iterations it holds
      the hits of the first n triples, or the first exception among them. */
  lemma {:induction false} RecordFirstMeaning(raw: RawDetections, classes: seq<string>, threshold: real, n: nat)
    requires n <= Examined(raw)
    ensures ScanError(raw, classes, threshold, n).Some? ==>
              RecordFirst(raw, classes, threshold, n) == Err(ScanError(raw, classes, threshold, n).value)
    ensures ScanError(raw, classes, threshold, n).None? ==>
              RecordFirst(raw, classes, threshold, n).Ok?
              && RecordsHits(RecordFirst(raw, classes, threshold, n).value, raw, classes, threshold, n)
  {
    if n > 0 {
      RecordFirstMeaning(raw, classes, threshold, n - 1);
      if ScanError(raw, classes, threshold, n - 1).None? {
        var t := RecordFirst(raw, classes, threshold, n - 1).value;
        var i := n - 1;
        if TripleError(raw, classes, threshold, i).None? {
          var after := RecordTriple(t, raw, classes, threshold, i).value;
          RecordStep(t, after, raw, classes, threshold, i);
        }
      }
    } else {
      assert RecordsHits(EmptyTable(classes), raw, classes, threshold, 0);
    }
  }

  lemma RecordFirstIsNormalize(raw: RawDetections, classes: seq<string>, threshold: real)
    ensures RecordFirst(raw, classes, threshold, Examined(raw)) == Normalize(raw, classes, threshold)
  {
    var n := Examined(raw);
    RecordFirstMeaning(raw, classes, threshold, n);
    if ScanError(raw, classes, threshold, n).None? {
      TableAfterIsRecorded(RecordFirst(raw, classes, threshold, n).value, raw, classes, threshold, n);
    }
  }

  /** `table` holds, for each known class, the hits among the first i triples. */
  ghost predicate RecordsHits(table: ClassTable, raw: RawDetections, classes: seq<string>, threshold: real, i: nat)
    requires i <= Examined(raw)
  {
    && table.Keys == KnownClasses(classes)
    && forall c :: c in table ==> table[c] == EntryOf(Hits(raw, classes, threshold, i, c))
  }

  /** Recording triple i extends at most the entry of its own class. */
  lemma RecordStep(before: ClassTable, after: ClassTable, raw: RawDetections, classes: seq<string>, threshold: real, i: nat)
    requires i < Examined(raw) && RecordsHits(before, raw, classes, threshold, i)
    requires RecordTriple(before, raw, classes, threshold, i) == Ok(after)
    ensures RecordsHits(after, raw, classes, threshold, i + 1)
  {
    var lbl := raw.labels[i];
    assert ValidLabel(classes, lbl);
    if raw.scores[i] < threshold {
      forall c | c in after
        ensures after[c] == EntryOf(Hits(raw, classes, threshold, i + 1, c))
      {
        assert !Qualifies(raw, classes, threshold, i, c);
        assert Hits(raw, classes, threshold, i + 1, c) == Hits(raw, classes, threshold, i, c) + [];
      }
    } else {
      var k := ClassAt(classes, lbl);
      var d := DetectionAt(raw, i);
      assert after == before[k := ClassEntry(true, before[k].detections + [d])];
      forall c | c in after
        ensures after[c] == EntryOf(Hits(raw, classes, threshold, i + 1, c))
      {
        if c == k {
          assert Qualifies(raw, classes, threshold, i, c);
          assert Hits(raw, classes, threshold, i + 1, c) == Hits(raw, classes, threshold, i, c) + [d];
        } else {
          assert !Qualifies(raw, classes, threshold, i, c);
          assert Hits(raw, classes, threshold, i + 1, c) == Hits(raw, classes, threshold, i, c) + [];
        }
      }
    }
  }

  lemma TableAfterIsRecorded(table: ClassTable, raw: RawDetections, classes: seq<string>, threshold: real, n: nat)
    requires n <= Examined(raw) && RecordsHits(table, raw, classes, threshold, n)
    ensures table == TableAfter(raw, classes, threshold, n)
  {
  }

  /** Once an exception is raised, later triples do not change it. */
  lemma {:induction false} ScanErrorSticky(raw: RawDetections, classes: seq<string>, threshold: real, m: nat, n: nat)
    requires m <= n <= Examined(raw)
    requires ScanError(raw, classes, threshold, m).Some?
    ensures ScanError(raw, classes, threshold, n) == ScanError(raw, classes, threshold, m)
    decreases n - m
  {
    if m < n {
      ScanErrorSticky(raw, classes, threshold, m, n - 1);
    }
  }

  /** The reply is rejected iff some examined triple raises, and the
      exception is that of the first such triple. */
  lemma {:induction false} ScanErrorIsFirst(raw: RawDetections, classes: seq<string>, threshold: real, n: nat)
    requires n <= Examined(raw)
    ensures ScanError(raw, classes, threshold, n) == None
            <==> forall i :: 0 <= i < n ==> TripleError(raw, classes, threshold, i) == None
    ensures ScanError(raw, classes, threshold, n).Some? ==>
              exists i :: 0 <= i < n && TripleError(raw, classes, threshold, i) == ScanError(raw, classes, threshold, n)
                && forall j :: 0 <= j < i ==> TripleError(raw, classes, threshold, j) == None
  {
    if n > 0 {
      ScanErrorIsFirst(raw, classes, threshold, n - 1);
    }
  }

  /** A triple is recorded under class c iff its label names c and its score
      reaches the threshold (inclusive). */
  lemma {:induction false} HitsMembers(raw: RawDetections, classes: seq<string>, threshold: real, n: nat, c: string, d: Detection)
    requires n <= Examined(raw)
    ensures d in Hits(raw, classes, threshold, n, c)
            <==> exists i :: 0 <= i < n && Qualifies(raw, classes, threshold, i, c) && d == DetectionAt(raw, i)
  {
    if n > 0 {
      HitsMembers(raw, classes, threshold, n - 1, c, d);
    }
  }

  /** Hits keep input order and keep duplicates: two qualifying triples
      occupy two positions, in their input order. */
  lemma {:induction false} HitsKeepOrder(raw: RawDetections, classes: seq<string>, threshold: real, n: nat, c: string, i: nat, j: nat)
    requires i < j < n <= Examined(raw)
    requires Qualifies(raw, classes, threshold, i, c) && Qualifies(raw, classes, threshold, j, c)
    ensures exists p, q :: 0 <= p < q < |Hits(raw, classes, threshold, n, c)|
              && Hits(raw, classes, threshold, n, c)[p] == DetectionAt(raw, i)
              && Hits(raw, classes, threshold, n, c)[q] == DetectionAt(raw, j)
  {
    var h := Hits(raw, classes, threshold, n, c);
    var prev := Hits(raw, classes, threshold, n - 1, c);
    assert h[..|prev|] == prev;
    if j == n - 1 {
      HitsMembers(raw, classes, threshold, n - 1, c, DetectionAt(raw, i));
      var p :| 0 <= p < |prev| && prev[p] == DetectionAt(raw, i);
      assert h[p] == DetectionAt(raw, i) && h[|prev|] == DetectionAt(raw, j);
    } else {
      HitsKeepOrder(raw, classes, threshold, n - 1, c, i, j);
      var p, q :| 0 <= p < q < |prev| && prev[p] == DetectionAt(raw, i) && prev[q] == DetectionAt(raw, j);
      assert h[p] == prev[p] && h[q] == prev[q];
    }
  }

  /** The table's keys are the known classes, present iff the class has
      detections, and every recorded detection reached the threshold. */
  lemma NormalizeShape(raw: RawDetections, classes: seq<string>, threshold: real)
    requires Normalize(raw, classes, threshold).Ok?
    ensures var t := Normalize(raw, classes, threshold).value;
      && t.Keys == KnownClasses(classes)
      && (forall c :: c in t ==> (t[c].present <==> t[c].detections != []))
      && (forall c, d :: c in t && d in t[c].detections ==> d.score >= threshold)
  {
    var t := Normalize(raw, classes, threshold).value;
    forall c, d | c in t && d in t[c].detections
      ensures d.score >= threshold
    {
      HitsMembers(raw, classes, threshold, Examined(raw), c, d);
    }
  }

  /** A reply is rejected for one of two reasons only: a label outside the
      class list, or a qualifying detection of the background class. */
  lemma NormalizeErrors(raw: RawDetections, classes: seq<string>, threshold: real)
    ensures Normalize(raw, classes, threshold).Err? ==>
              Normalize(raw, classes, threshold).error.LabelIndexError?
              || Normalize(raw, classes, threshold).error == ClassKeyError(Background)
  {
    var n := Examined(raw);
    ScanErrorIsFirst(raw, classes, threshold, n);
    if ScanError(raw, classes, threshold, n).Some? {
      var i :| 0 <= i < n && TripleError(raw, classes, threshold, i) == ScanError(raw, classes, threshold, n);
      var lbl := raw.labels[i];
      if ValidLabel(classes, lbl) {
        assert ClassAt(classes, lbl) in classes;
      }
    }
  }

  /** A score exactly at the threshold counts. */
  lemma ThresholdIsInclusive(raw: RawDetections, classes: seq<string>, threshold: real, i: nat)
    requires Normalize(raw, classes, threshold).Ok?
    requires i < Examined(raw) && ValidLabel(classes, raw.labels[i]) && raw.scores[i] == threshold
    ensures ClassAt(classes, raw.labels[i]) in Normalize(raw, classes, threshold).value
    ensures DetectionAt(raw, i) in Normalize(raw, classes, threshold).value[ClassAt(classes, raw.labels[i])].detections
  {
    var n := Examined(raw);
    ScanErrorIsFirst(raw, classes, threshold, n);
    assert TripleError(raw, classes, threshold, i) == None;
    HitsMembers(raw, classes, threshold, n, ClassAt(classes, raw.labels[i]), DetectionAt(raw, i));
  }

  /** An empty reply gives the all-absent table. */
  lemma NormalizeEmptyReply(raw: RawDetections, classes: seq<string>, threshold: real)
    requires Examined(raw) == 0
    ensures Normalize(raw, classes, threshold) == Ok(EmptyTable(classes))
  {
    assert TableAfter(raw, classes, threshold, 0) == EmptyTable(classes);
  }

  function Truncated(raw: RawDetections): RawDetections {
    var n := Examined(raw);
    RawDetections(raw.boxes[..n], raw.scores[..n], raw.labels[..n])
  }

  /** Elements past the shortest list are never looked at. */
  lemma NormalizeIgnoresTail(raw: RawDetections, classes: seq<string>, threshold: real)
    ensures Normalize(raw, classes, threshold) == Normalize(Truncated(raw), classes, threshold)
  {
    var n := Examined(raw);
    var short := Truncated(raw);
    assert Examined(short) == n;
    assert short.boxes[..n] == raw.boxes[..n] && short.scores[..n] == raw.scores[..n] && short.labels[..n] == raw.labels[..n];
    PrefixAgrees(raw, short, classes, threshold, n);
    assert TableAfter(raw, classes, threshold, n) == TableAfter(short, classes, threshold, n);
  }

  lemma {:induction false} PrefixAgrees(a: RawDetections, b: RawDetections, classes: seq<string>, threshold: real, n: nat)
    requires n <= Examined(a) && n <= Examined(b)
    requires a.boxes[..n] == b.boxes[..n] && a.scores[..n] == b.scores[..n] && a.labels[..n] == b.labels[..n]
    ensures ScanError(a, classes, threshold, n) == ScanError(b, classes, threshold, n)
    ensures forall c :: Hits(a, classes, threshold, n, c) == Hits(b, classes, threshold, n, c)
  {
    if n > 0 {
      assert a.boxes[..n - 1] == a.boxes[..n][..n - 1];
      assert b.boxes[..n - 1] == b.boxes[..n][..n - 1];
      assert a.scores[..n - 1] == a.scores[..n][..n - 1];
      assert b.scores[..n - 1] == b.scores[..n][..n - 1];
      assert a.labels[..n - 1] == a.labels[..n][..n - 1];
      assert b.labels[..n - 1] == b.labels[..n][..n - 1];
      PrefixAgrees(a, b, classes, threshold, n - 1);
      assert a.boxes[n - 1] == a.boxes[..n][n - 1] == b.boxes[n - 1];
      assert a.scores[n - 1] == a.scores[..n][n - 1] == b.scores[n - 1];
      assert a.labels[n - 1] == a.labels[..n][n - 1] == b.labels[n - 1];
    }
  }

  // ---------------------------------------------------------------------
  // Aggregating the pages of a PDF
  // ---------------------------------------------------------------------

  /** `result.get('detected_classes', {})` */
  function TableOf(p: PageResult): ClassTable {
    if p.PageDetections? then p.detectedClasses else map[]
  }

  predicate PresentOn(p: PageResult, c: string) {
    c in TableOf(p) && TableOf(p)[c].present
  }

  /** What page p adds to class c's detection list. */
  function Contribution(p: PageResult, c: string): seq<Detection> {
    if PresentOn(p, c) then TableOf(p)[c].detections else []
  }

  /** Class c's detections of all pages, concatenated in page order. */
  function Gathered(pages: seq<PageResult>, c: string): seq<Detection> {
    if pages == [] then []
    else Gathered(pages[..|pages| - 1], c) + Contribution(pages[|pages| - 1], c)
  }

  predicate PresentAnywhere(pages: seq<PageResult>, c: string) {
    exists i :: 0 <= i < |pages| && PresentOn(pages[i], c)
  }

  /** Some page reports a present class the aggregate table has no key for. */
  ghost predicate AggregateFails(classes: seq<string>, pages: seq<PageResult>) {
    exists i, c :: 0 <= i < |pages| && PresentOn(pages[i], c) && c !in KnownClasses(classes)
  }

  /** The table `aggregate_results` builds. */
  function AggregateTable(classes: seq<string>, pages: seq<PageResult>): ClassTable {
    map c | c in KnownClasses(classes) :: ClassEntry(PresentAnywhere(pages, c), Gathered(pages, c))
  }

  /** aggregate_results: overwrites the entry's `detected_classes` with the
      merge of the pages and leaves every other key alone. */
  method AggregateResults(fileResult: FileResult, pdfResults: seq<PageResult>, classes: seq<string>)
    returns (r: Result<FileResult>)
    ensures r.Ok? <==> !AggregateFails(classes, pdfResults)
    ensures r.Ok? ==> r.value == fileResult.(detectedClasses := Classes(AggregateTable(classes, pdfResults)))
    ensures r.Err? ==> r.error.ClassKeyError? && r.error.name !in KnownClasses(classes)
                       && exists i :: 0 <= i < |pdfResults| && PresentOn(pdfResults[i], r.error.name)
  {
    var detected := EmptyTable(classes);
    assert detected == AggregateTable(classes, pdfResults[..0]);
    for i := 0 to |pdfResults|
      invariant !AggregateFails(classes, pdfResults[..i])
      invariant detected == AggregateTable(classes, pdfResults[..i])
    {
      var page := pdfResults[i];
      var pageTable := if page.PageDetections? then page.detectedClasses else map[];
      AggregateStep(classes, pdfResults, i);
      var merged := MergePageClasses(detected, pageTable);
      if merged.Err? {
        assert PresentOn(pdfResults[i], merged.error.name);
        return Err(merged.error);
      }
      detected := merged.value;
    }
    assert pdfResults[..|pdfResults|] == pdfResults;
    r := Ok(fileResult.(detectedClasses := Classes(detected)));
  }

  /** `table` with the present entries of `pageTable` appended. */
  function Merged(table: ClassTable, pageTable: ClassTable): ClassTable {
    map c | c in table :: if c in pageTable && pageTable[c].present
                          then ClassEntry(true, table[c].detections + pageTable[c].detections)
                          else table[c]
  }

  /** `table` is `before` with the present entries of `pageTable` outside
      `pending` merged in. */
  ghost predicate MergedExcept(table: ClassTable, before: ClassTable, pageTable: ClassTable, pending: set<string>) {
    && table.Keys == before.Keys
    && forall c :: c in table ==>
         table[c] == if c in pageTable && c !in pending && pageTable[c].present
                     then ClassEntry(true, before[c].detections + pageTable[c].detections)
                     else before[c]
  }

  /** The inner loop of aggregate_results over one page's classes. */
  method MergePageClasses(detected: ClassTable, pageTable: ClassTable) returns (r: Result<ClassTable>)
    ensures r.Ok? <==> forall c :: c in pageTable && pageTable[c].present ==> c in detected
    ensures r.Ok? ==> r.value == Merged(detected, pageTable)
    ensures r.Err? ==> r.error.ClassKeyError? && r.error.name in pageTable
                       && pageTable[r.error.name].present && r.error.name !in detected
  {
    var table := detected;
    var pending := pageTable.Keys;
    while pending != {}
      invariant pending <= pageTable.Keys
      invariant MergedExcept(table, detected, pageTable, pending)
      invariant forall c :: c in pageTable && c !in pending && pageTable[c].present ==> c in detected
      decreases pending
    {
      var className :| className in pending;
      var data := pageTable[className];
      if data.present {
        if className !in table {
          return Err(ClassKeyError(className));
        }
        table := table[className := ClassEntry(true, table[className].detections + data.detections)];
      }
      pending := pending - {className};
    }
    assert table == Merged(detected, pageTable);
    r := Ok(table);
  }

  /** Adding page i to the first i pages merges that page's table. */
  lemma AggregateStep(classes: seq<string>, pages: seq<PageResult>, i: nat)
    requires i < |pages| && !AggregateFails(classes, pages[..i])
    ensures var known := AggregateTable(classes, pages[..i]);
      && (!AggregateFails(classes, pages[..i + 1])
          <==> forall c :: c in TableOf(pages[i]) && TableOf(pages[i])[c].present ==> c in known)
      && (!AggregateFails(classes, pages[..i + 1]) ==>
            Merged(known, TableOf(pages[i])) == AggregateTable(classes, pages[..i + 1]))
  {
    var next := pages[..i + 1];
    assert next[..i] == pages[..i];
    assert next[i] == pages[i];
    forall c
      ensures PresentAnywhere(next, c) <==> PresentAnywhere(pages[..i], c) || PresentOn(pages[i], c)
      ensures Gathered(next, c) == Gathered(pages[..i], c) + Contribution(pages[i], c)
    {
      if PresentAnywhere(next, c) {
        var j :| 0 <= j < |next| && PresentOn(next[j], c);
        if j < i {
          assert PresentOn(pages[..i][j], c);
        }
      }
      if PresentAnywhere(pages[..i], c) {
        var j :| 0 <= j < i && PresentOn(pages[..i][j], c);
        assert PresentOn(next[j], c);
      }
    }
    var known := AggregateTable(classes, pages[..i]);
    var merged := Merged(known, TableOf(pages[i]));
    var after := AggregateTable(classes, next);
    assert merged.Keys == after.Keys;
    forall c | c in merged
      ensures merged[c] == after[c]
    {
    }
    assert merged == after;
    forall j, c | 0 <= j < i && PresentOn(next[j], c)
      ensures c in KnownClasses(classes)
    {
      assert PresentOn(pages[..i][j], c);
    }
  }

  /** Detections of a class across two runs of pages are the two runs'
      detections in order. */
  lemma {:induction false} GatheredConcat(a: seq<PageResult>, b: seq<PageResult>, c: string)
    ensures Gathered(a + b, c) == Gathered(a, c) + Gathered(b, c)
  {
    if b != [] {
      var b' := b[..|b| - 1];
      assert (a + b)[..|a + b| - 1] == a + b';
      assert (a + b)[|a + b| - 1] == b[|b| - 1];
      GatheredConcat(a, b', c);
    } else {
      assert a + b == a;
    }
  }

  /** Presence does not depend on the order (or grouping) of the pages. */
  lemma PresenceIgnoresPageOrder(a: seq<PageResult>, b: seq<PageResult>, c: string)
    requires multiset(a) == multiset(b)
    ensures PresentAnywhere(a, c) <==> PresentAnywhere(b, c)
  {
    if PresentAnywhere(a, c) {
      var i :| 0 <= i < |a| && PresentOn(a[i], c);
      assert a[i] in multiset(b);
      var j :| 0 <= j < |b| && b[j] == a[i];
    }
    if PresentAnywhere(b, c) {
      var j :| 0 <= j < |b| && PresentOn(b[j], c);
      assert b[j] in multiset(a);
      var i :| 0 <= i < |a| && a[i] == b[j];
    }
  }

  /** Pages without a `detected_classes` key (error markers, field lists, or
      none at all) aggregate to the all-absent table. */
  lemma {:induction false} AggregateWithoutTables(classes: seq<string>, pages: seq<PageResult>)
    requires forall i :: 0 <= i < |pages| ==> !pages[i].PageDetections?
    ensures !AggregateFails(classes, pages)
    ensures AggregateTable(classes, pages) == EmptyTable(classes)
  {
    forall c ensures Gathered(pages, c) == [] {
      NoTablesGatherNothing(pages, c);
    }
  }

  lemma {:induction false} NoTablesGatherNothing(pages: seq<PageResult>, c: string)
    requires forall i :: 0 <= i < |pages| ==> !pages[i].PageDetections?
    ensures Gathered(pages, c) == []
  {
    if pages != [] {
      NoTablesGatherNothing(pages[..|pages| - 1], c);
    }
  }

  /** Tables whose keys are known classes never make the merge fail. */
  lemma KnownKeysNeverFail(classes: seq<string>, pages: seq<PageResult>)
    requires forall i :: 0 <= i < |pages| ==> TableOf(pages[i]).Keys <= KnownClasses(classes)
    ensures !AggregateFails(classes, pages)
  {
  }

  /** When every page's table is itself consistent (present iff it has
      detections), so is the merged one. */
  lemma {:induction false} AggregateConsistent(pages: seq<PageResult>, c: string)
    requires forall i :: 0 <= i < |pages| && c in TableOf(pages[i]) ==>
               (TableOf(pages[i])[c].present <==> TableOf(pages[i])[c].detections != [])
    ensures PresentAnywhere(pages, c) <==> Gathered(pages, c) != []
  {
    if pages != [] {
      var init := pages[..|pages| - 1];
      var last := pages[|pages| - 1];
      AggregateConsistent(init, c);
      assert forall i :: 0 <= i < |init| ==> init[i] == pages[i];
      if PresentAnywhere(pages, c) && !PresentOn(last, c) {
        var i :| 0 <= i < |pages| && PresentOn(pages[i], c);
        assert PresentOn(init[i], c);
      }
      if PresentAnywhere(init, c) {
        var i :| 0 <= i < |init| && PresentOn(init[i], c);
        assert PresentOn(pages[i], c);
      }
    }
  }

  /** The pages that carry a table, in order. */
  function DetectionPages(pages: seq<PageResult>): (tables: seq<PageResult>)
    ensures |tables| <= |pages|
    ensures forall i :: 0 <= i < |tables| ==> tables[i].PageDetections?
  {
    if pages == [] then []
    else
      var last := pages[|pages| - 1];
      DetectionPages(pages[..|pages| - 1]) + if last.PageDetections? then [last] else []
  }

  /** Error markers and field lists can be dropped from the page list
      without changing a class's gathered detections. */
  lemma {:induction false} MarkersGatherNothing(pages: seq<PageResult>, c: string)
    ensures Gathered(pages, c) == Gathered(DetectionPages(pages), c)
  {
    if pages != [] {
      var init, last := pages[..|pages| - 1], pages[|pages| - 1];
      MarkersGatherNothing(init, c);
      var tables := DetectionPages(init);
      if last.PageDetections? {
        assert (tables + [last])[..|tables|] == tables;
        assert Gathered(DetectionPages(pages), c) == Gathered(tables, c) + Contribution(last, c);
      } else {
        assert DetectionPages(pages) == tables + [] == tables;
        assert !PresentOn(last, c);
        assert Gathered(pages, c) == Gathered(init, c) + [] == Gathered(init, c);
      }
    }
  }

  /** ... nor its presence. */
  lemma {:induction false} MarkersNeverPresent(pages: seq<PageResult>, c: string)
    ensures PresentAnywhere(pages, c) <==> PresentAnywhere(DetectionPages(pages), c)
  {
    if pages != [] {
      var init, last := pages[..|pages| - 1], pages[|pages| - 1];
      MarkersNeverPresent(init, c);
      var tables := DetectionPages(init);
      var all := DetectionPages(pages);
      assert forall i :: 0 <= i < |tables| ==> all[i] == tables[i];
      assert forall i :: 0 <= i < |init| ==> pages[i] == init[i];
      if PresentAnywhere(pages, c) && !PresentOn(last, c) {
        var i :| 0 <= i < |pages| && PresentOn(pages[i], c);
        assert PresentOn(init[i], c);
      }
      if PresentAnywhere(all, c) && !PresentOn(last, c) {
        var i :| 0 <= i < |all| && PresentOn(all[i], c);
        assert PresentOn(tables[i], c);
      }
      if PresentOn(last, c) {
        assert PresentOn(pages[|pages| - 1], c);
        assert PresentOn(all[|all| - 1], c);
      }
      if PresentAnywhere(init, c) {
        var i :| 0 <= i < |init| && PresentOn(init[i], c);
        assert PresentOn(pages[i], c);
      }
      if PresentAnywhere(tables, c) {
        var i :| 0 <= i < |tables| && PresentOn(tables[i], c);
        assert PresentOn(all[i], c);
      }
    }
  }

  lemma AggregateOfDetectionPages(classes: seq<string>, pages: seq<PageResult>)
    ensures AggregateTable(classes, pages) == AggregateTable(classes, DetectionPages(pages))
  {
    forall c
      ensures Gathered(pages, c) == Gathered(DetectionPages(pages), c)
      ensures PresentAnywhere(pages, c) <==> PresentAnywhere(DetectionPages(pages), c)
    {
      MarkersGatherNothing(pages, c);
      MarkersNeverPresent(pages, c);
    }
  }
}
